=== FILE: README.md ===
# RecursiveDNS in Dafny

A model of the three programs of RecursiveDNS: a small, text-based, recursive name
resolver made of a root server (`RS.py`), a top-level server for one domain
(`TSEDU.py`, the `edu` server on port 3402) and a client (`CLIENT.py`). The root
server expects a `com` server on port 3401: a copy of the same program with its port
changed, since the command line only chooses the table file.

- **Records.** The three programs share one `Record` class, copied word for word
  into each file (RS.py:26-58, TSEDU.py:20-52, CLIENT.py:20-52), and the table built
  from a list of lines. The model holds them once:
  - `DnsRecord`: a line `hostname ip flag` is split on whitespace as `str.split()`
    does. The flag must be `A` or `NS`. Missing words leave fields unset, so every
    field is an `Option`.
  - `RecordTable`: a Python dict keeps insertion order and an overwritten key keeps
    its place. The table is therefore an ordered key list beside a map.
  - `Text`: the Python string primitives these rely on.
  - `Search`: the first or last position in a sequence that satisfies a test.
- **Connections.** A connection is seen from one end as a transcript (`Session.Conn`):
  - the messages the peer will still send;
  - what was read;
  - what was sent;
  - whether this end has closed it.

  Each message is one read. A read on a closed end, or with nothing left to read,
  raises.
- **Root server (`RootServer`).** Before serving, it finds the two top-level servers,
  either from given hostnames or from the first matching `NS` record in table order
  (`connectTLD`, `find_TLD_NS_entry`). Then it serves one client. Each call of `run`
  does one of four things:
  - On the termination message `"\r\n\r\n"`, it closes the client connection and
    returns `False`.
  - On a key of its table, it answers with the record.
  - On a name whose last three characters, lower-cased, are `edu` (tested first) or
    `com`, it forwards the name to that server and relays the one reply it reads back.
  - On anything else, it answers `"<name> - Error: HOST NOT FOUND"`.
- **Top-level server (`AuthorityServer`).** It answers from its own table or with the
  not-found reply, and never forwards. On the termination message it closes the
  connection but returns `True`. Its `while self.run()` loop therefore goes on, and
  ends only when the next read raises on the closed connection. The model keeps this
  as written. `run_tserver` swallows that exception, so the server still ends quietly.
- **Client (`ResolverClient`).** It sends each query line, stripped, and reads one
  reply. It writes what it makes of the reply:
  - an `A` record in single-space form;
  - nothing for an `NS` record;
  - the raw reply when parsing raises or the flag is missing.

  After the last query it sends the termination message once.

Each server and the client are classes whose methods update their table and
connections. Each method is proved equal to a pure step or loop function
(`RootStep`/`RootServe`, `RunStep`/`ServeLoop`, `ResolveStep`/`ClientRun`), and the
lemmas state what those functions do.

The not-found reply has a quirk, stated by `NotFoundForThreeWordQuery` below. When a
query has three or more words and its third word is `A`, the not-found reply parses
as an address record. The client then writes the query's first three words instead
of the error.

## Model

| member | source | states |
|---|---|---|
| Text.Split | RS.py:28 | every element of `str.split()` is a non-empty word without whitespace |
| Text.SplitStrip | RS.py:28 | `s.strip().split() == s.split()` for every `s` |
| Text.StripEmptyIffNoWords | RS.py:55 | `len(line.strip()) > 0` exactly when the line has a word |
| Text.StripTrims | RS.py:55 | `strip()` leaves text that is empty or starts and ends with a non-space |
| Text.StripLeftTrims | RS.py:28 | `lstrip()` removes exactly a blank prefix and stops at a non-space |
| Text.StripRightTrims | RS.py:28 | `rstrip()` removes exactly a blank suffix and stops at a non-space |
| Text.SplitBlank | RS.py:55 | a string has no words exactly when it is all whitespace |
| Text.RFind | RS.py:45 | `rfind` gives -1 or an index holding the character with none after it |
| Text.SliceFrom | RS.py:202 | the slice `s[i:]` (negative start clamped) is a suffix of `s` |
| Text.StripLeft | RS.py:55 | no contract of its own; `StripLeftTrims` characterises it |
| Text.StripRight | RS.py:55 | no contract of its own; `StripRightTrims` characterises it |
| Text.Strip | RS.py:55 | no contract of its own; `StripTrims`, `SplitStrip` and `StripEmptyIffNoWords` characterise it |
| Text.IsSpace | RS.py:28 | no contract of its own; accepts exactly the characters of Python's `str.isspace()` (ASCII space, tab, line feed, vertical tab, form feed, carriage return, the separators U+001C-U+001F, U+0085, U+00A0, U+1680, U+2000-U+200A, U+2028, U+2029, U+202F, U+205F, U+3000), on which `split()` and `strip()` act |
| Text.LowerIdempotent | RS.py:230 | `lower()` twice is `lower()` once |
| Text.Lower | RS.py:47 | no contract of its own; `LowerIdempotent`, `GetTLDIsLastLabel` and `SuffixIsEnding` rely on it as ASCII lower-casing |
| DnsRecord.Parse | RS.py:27-37 | a parsed record's fields are words, set from the left with none skipped |
| DnsRecord.ParseNamesHost | RS.py:28-30 | a parsed record has a hostname exactly when the line is not blank |
| DnsRecord.Serialise | RS.py:40-41 | formatting succeeds exactly when all three fields are set |
| DnsRecord.ParseSerialiseRoundTrip | RS.py:27-41 | `"h i k"` with `k` in {A, NS} parses and formats back to exactly `"h i k"` |
| DnsRecord.SerialiseParseRoundTrip | RS.py:27-41 | a well-formed full record formats to a line that parses back to it |
| DnsRecord.UnknownTypeRejected | RS.py:33-37 | a third word raises exactly when it is neither `A` nor `NS`, and the error carries that word |
| DnsRecord.ShortLinePartial | RS.py:29-32 | one or two words set hostname (and ip) and leave the flag unset |
| DnsRecord.ParseIgnoresExtraWords | RS.py:28-35 | only the first three words matter |
| DnsRecord.SerialiseNormalises | RS.py:40-41 | a parsed full record formats as its first three words joined by single spaces |
| DnsRecord.GetTLD | RS.py:44-49 | no contract of its own; `GetTLDIsLastLabel` and `GetTLDFails` characterise it |
| DnsRecord.GetTLDIsLastLabel | RS.py:44-47 | `get_TLD` is the lower-cased text after the last `.` |
| DnsRecord.GetTLDFails | RS.py:44-49 | `get_TLD` raises exactly when there is no hostname or it has no `.` |
| RecordTable.Insert | RS.py:57 | no contract of its own; `InsertKeepsValid` and `InsertOrder` characterise it |
| RecordTable.Store | RS.py:55-57 | no contract of its own; `StoreEffect`, `StoreKeepsValid` and `StoreOrder` characterise it |
| RecordTable.Build | RS.py:52-58 | no contract of its own; `BuildLookup`, `BuildFirstError`, `BuildKeepsOrder` and `BuildKeyOrder` characterise it, and `ListToTable` is proved equal to it |
| RecordTable.InsertAll | TSEDU.py:153 | no contract of its own; `InsertAllEffect` and `InsertAllOrder` characterise it |
| RecordTable.InsertKeepsValid | RS.py:57 | `d[k] = v` keeps keys unique and in step with the map, and keeps old keys in place |
| RecordTable.ListToTable | RS.py:52-58 | the loop of `list_to_table` computes `Build(Empty, lines)` |
| RecordTable.StoreEffect | RS.py:55-57 | one line fails exactly when it is rejected; otherwise only its hostname's entry changes |
| RecordTable.LastDefinitionIsLast | RS.py:54-57 | the reference "last defining line" is set exactly when some line defines the key, and is that line's record |
| RecordTable.BuildLookup | RS.py:52-58 | after building, a key is present exactly when it was or some line defines it; the last line wins; other entries are kept |
| RecordTable.LastLineWins | RS.py:54-57 | the record stored for `k` is that of the last line defining `k` |
| RecordTable.BuildFirstError | RS.py:54-56 | building fails exactly when some line is rejected, with the first rejected line's error |
| RecordTable.BuildFails | RS.py:54-56 | the same over line positions: fails iff a non-blank line fails to parse; the error is the first such line's |
| RecordTable.StoreKeepsValid | RS.py:55-57 | storing a line keeps the table consistent and keeps old keys in place |
| RecordTable.BuildKeepsOrder | RS.py:52-58 | building keeps the table consistent, and an overwritten hostname keeps its place |
| RecordTable.BuildKeyOrder | RS.py:52-58 | the built table lists its old keys, then each newly defined hostname once, in the order the lines first define it |
| RecordTable.BuildFromEmptyOrder | RS.py:52-58 | `list_to_table` iterates over the defined hostnames in the order of their first definition |
| RecordTable.InsertOrder | RS.py:57 | `d[k] = v` appends `k` when it is new and leaves the key list alone otherwise |
| RecordTable.LaterLineReplaces | RS.py:57 | two lines for one hostname leave one key holding the second record |
| RecordTable.Update | TSEDU.py:153 | `update` keeps the table consistent and old keys in place; loaded entries override; other entries are kept |
| RecordTable.UpdateOrder | TSEDU.py:153 | after `update`, the old keys come first, then the loaded keys the table lacked, in the loaded table's order |
| RecordTable.InsertAllEffect | TSEDU.py:153 | assigning keys in order writes exactly those keys' values, keeps the rest, and keeps the table consistent |
| RecordTable.NewKeysDistinct | RS.py:57 | distinct keys none of which is seen are all new, in their own order |
| RecordTable.UpdateEmptyOrder | TSEDU.py:153 | `update` of an empty table with a consistent table copies its key order |
| RecordTable.LoadIntoEmptyOrder | RS.py:245 | the table file loaded into a fresh server is scanned in the order in which its lines first define each hostname |
| RecordTable.InsertAllOrder | TSEDU.py:153 | assigning keys in order appends the new ones, each once, in the order of first assignment |
| Session.NotFoundReply | RS.py:211 | no contract of its own; the not-found text `"<name> - Error: HOST NOT FOUND"` (also TSEDU.py:143), characterised by `SplitNotFound` and `NotFoundWrittenRaw` |
| Session.Conn.Recv | RS.py:190 | `recv` on an open end with a waiting message takes exactly that message: it moves from the inbox to the received log, and nothing else changes |
| Session.Conn.Send | RS.py:200 | `send` on an open end appends exactly the message to the sent log, and nothing else changes |
| Session.Conn.Close | RS.py:193 | `close` leaves the end closed, so no further read succeeds, and keeps the logs |
| Session.BeforeEofIsPrefix | TSEDU.py:133-135 | the messages read before the termination message are the longest prefix free of it |
| Session.UpToEofIsPrefix | TSEDU.py:133-135 | the messages taken by a reader that stops after the termination message are those before it plus it, or all of them |
| AuthorityServer.Answer | TSEDU.py:133-143 | no contract of its own; `EofClosesButContinues`, `QueryAnswered` and `UnformattableRecordRaises` give its three outcomes |
| AuthorityServer.ServeLoop | TSEDU.py:93-94 | no contract of its own; `ServeLoopEndsByRaising` and `ServeLoopTranscript` characterise it |
| AuthorityServer.RunStep | TSEDU.py:131-144 | `run` never returns `False`; a `True` step has read exactly the first waiting message |
| AuthorityServer.EofClosesButContinues | TSEDU.py:133-135 | the termination message closes without a reply, returns `True`, and the next read raises |
| AuthorityServer.QueryAnswered | TSEDU.py:137-144 | any other message whose record, if any, can be formatted gets exactly one reply: its record when it is a key, the not-found reply otherwise |
| AuthorityServer.UnformattableRecordRaises | TSEDU.py:139-140 | a key whose record lacks a field is read, gets no reply, and the step raises |
| AuthorityServer.ReplyTo | TSEDU.py:139-143 | no contract of its own; the reference reply (the record's text for a key, the not-found reply otherwise), tied to `run` by `QueryAnswered` and `ServeLoopTranscript` |
| AuthorityServer.Replies | TSEDU.py:137-143 | one reply per query |
| AuthorityServer.ServeLoopEndsByRaising | TSEDU.py:93-94 | the serving loop always ends by an exception |
| AuthorityServer.ServeLoopTranscript | TSEDU.py:131-144 | when every record can be formatted, a session sends one reply per query before the first termination message, in order, and reads up to and including it |
| AuthorityServer.TopLevelServer.constructor | TSEDU.py:125-126 | a new server has an empty table |
| AuthorityServer.TopLevelServer.Load | TSEDU.py:153 | the loaded table is merged into the table by `update`; a parse error leaves it unchanged |
| AuthorityServer.TopLevelServer.Run | TSEDU.py:131-144 | `run` changes the state exactly as `RunStep` |
| AuthorityServer.TopLevelServer.Start | TSEDU.py:89-94 | `start` on an accepted connection is `ServeLoop`, which ends by raising |
| RootServer.ProbeRecord | RS.py:230 | the test raises on a record without a flag, or on an `NS` record without a `.`; it matches an `NS` record whose label equals `tld` up to case |
| RootServer.ScanFrom | RS.py:228-232 | no contract of its own; `ScanStopsAtFirst`, `ScanAbsent` and `ScanFoundIsFirstMatch` characterise it |
| RootServer.ScanStopsAtFirst | RS.py:228-232 | the scan's outcome is the first entry in table order that is not passed over |
| RootServer.ScanAbsent | RS.py:228-232 | the scan returns `None` exactly when every entry is passed over |
| RootServer.ScanFoundIsFirstMatch | RS.py:228-232 | a record found is a matching `NS` record, and every entry before it is passed over |
| RootServer.NsRecordMatchesItsLabel | RS.py:230 | an `NS` record `p.s` matches `tld` exactly when `tld` and `s` agree up to case |
| RootServer.Pick | RS.py:154-163 | a given hostname is used unchanged; otherwise a found record gives its `ip` (or raises without one), a missing record raises that server's error, a raising scan raises |
| RootServer.Discover | RS.py:153-163 | succeeds exactly when both lookups do, with their two hostnames; a `com` failure is the error reported, otherwise an `edu` failure |
| RootServer.GivenHostsUnchanged | RS.py:153-165 | given hostnames are used as they are, whatever the table holds |
| RootServer.DiscoverUsesFirstNsRecord | RS.py:154-158 | without a given hostname, `com` is the `ip` of the first matching `NS` record |
| RootServer.MissingComReportedFirst | RS.py:154-157 | a missing `com` record is reported even when `edu` would fail too |
| RootServer.Suffix | RS.py:202-206 | no contract of its own; `hnstring[len(hnstring)-3:].lower()`, characterised by `SuffixIsEnding` and `SuffixIgnoresDots` |
| RootServer.SuffixIsEnding | RS.py:202 | the slice test equals "ends with the three characters, up to case"; shorter names never match |
| RootServer.RouteFor | RS.py:192-211 | no contract of its own; `RouteOrder` characterises it |
| RootServer.RouteOrder | RS.py:192-211 | the termination message, then a table key, then `edu`, then `com`, then not found, each as an iff |
| RootServer.SuffixIgnoresDots | RS.py:202-205 | `xedu` and `WWW.RUTGERS.EDU` both go to the `edu` server |
| RootServer.RelayStep | RS.py:203-209 | a relay that does not raise sends the upstream's first reply to the client; a raising relay leaves the client alone |
| RootServer.Handle | RS.py:192-212 | handling keeps the table; `HandleEffect` gives its effect on the client |
| RootServer.RootStep | RS.py:189-212 | a step keeps the table; `StepAccounting`, `EofStops`, `LocalHitAnswered`, `LocalUnformattableRaises`, `ForwardRelays` and `UnknownNotFound` give its outcomes |
| RootServer.HandleEffect | RS.py:192-212 | handling reads nothing more; only the termination message gives `False` and closes; `True` follows exactly one reply |
| RootServer.StepAccounting | RS.py:189-212 | a step never loses or invents a client message; `True` and `False` each follow exactly one read, a raise at most one; `False` exactly on the termination message, and it closes the client; `True` follows exactly one reply to the client, any other outcome none |
| RootServer.RootServe | RS.py:99-100 | the serving loop ends by `False` or an exception, never by `True`, and keeps the table |
| RootServer.EofStops | RS.py:192-194 | the termination message closes the client, sends nothing anywhere, and returns `False` |
| RootServer.LocalHitAnswered | RS.py:198-200 | a table key whose record can be formatted is answered from the table, even when it ends in `edu`/`com`; no upstream is contacted |
| RootServer.LocalUnformattableRaises | RS.py:198-200 | a table key whose record lacks a field is read, nothing is sent to the client or upstream, and the step raises |
| RootServer.ForwardRelays | RS.py:202-209 | a forwarded name is sent once to its server; the one reply read back is relayed unchanged; the other server is untouched |
| RootServer.UnknownNotFound | RS.py:210-211 | any other name gets the not-found reply and no upstream is contacted |
| RootServer.OneReplyPerMessage | RS.py:99-100 | over a session, every message read gets one reply, except possibly the last |
| RootServer.StopAfterEof | RS.py:192-194 | a loop that ends by `False` has read exactly up to the first termination message, answered each message before it, and closed |
| RootServer.RootResolver.constructor | RS.py:136-137 | a new server has an empty table and no connection |
| RootServer.RootResolver.Load | RS.py:245 | the loaded table is merged by `update`; a parse error leaves the table unchanged |
| RootServer.RootResolver.FindTldNsEntry | RS.py:228-232 | the loop with early return computes `ScanFrom(table, tld, 0)` |
| RootServer.RootResolver.ConnectTld | RS.py:153-165 | the outcome is `Discover`; on success both connections are set, on error neither |
| RootServer.RootResolver.Run | RS.py:189-212 | `run` changes the state exactly as `RootStep` |
| RootServer.RootResolver.Relay | RS.py:203-209 | the relay changes the state exactly as `RelayStep` |
| RootServer.RootResolver.Start | RS.py:95-100 | `start` on an accepted client connection is `RootServe` |
| ResolverClient.Interpret | CLIENT.py:113-118 | nothing is written exactly for an `NS` record; a line other than the raw reply comes only from an `A` record |
| ResolverClient.SplitNotFound | RS.py:211 | the not-found reply splits into the name's words, then `- Error: HOST NOT FOUND` |
| ResolverClient.NotFoundWrittenRaw | CLIENT.py:113-118 | the not-found reply for a name of at most two words raises on parsing and is written raw |
| ResolverClient.NotFoundForThreeWordQuery | CLIENT.py:114-116 | the not-found reply for a query whose third word is `A` is written as an address record of the query's first three words |
| ResolverClient.AddressNormalised | CLIENT.py:114-116 | an `A` record is written with single spaces, whatever follows its third word |
| ResolverClient.AddressRecordVerbatim | CLIENT.py:114-116 | a reply `"h i A"` is written unchanged |
| ResolverClient.ShortReplyRaw | CLIENT.py:115-118 | a reply of fewer than three words is written raw |
| ResolverClient.Emit | CLIENT.py:80-82 | `output` appends the message and a line break, and nothing else |
| ResolverClient.Stripped | CLIENT.py:133 | one stripped query per query line, in order; `StrippedNotEof` and `RunTranscript` say what is sent |
| ResolverClient.ResolveStep | CLIENT.py:110-118 | no contract of its own; `ResolveStepEffect` gives the successful call |
| ResolverClient.ResolveAll | CLIENT.py:132-133 | no contract of its own; `ResolveAllTranscript` and `ResolveAllSentPrefix` characterise it |
| ResolverClient.ClientRun | CLIENT.py:132-136 | no contract of its own; `RunTranscript` and `RunRaisesWithoutEof` characterise it |
| ResolverClient.ResolveStepEffect | CLIENT.py:110-118 | one successful `resolve_DNS` sends the name once, reads one reply and writes that reply's line |
| ResolverClient.ResolveAllTranscript | CLIENT.py:132-133 | the loop succeeds exactly when the connection is open and a reply exists for every name; it sends the names in order, reads one reply each, and writes their lines |
| ResolverClient.RunTranscript | CLIENT.py:132-136 | a full run sends the stripped queries in order, then one termination message, and writes at most one line per query |
| ResolverClient.ResolveAllSentPrefix | CLIENT.py:132-133 | however the loop ends, it has sent a prefix of the names, in order |
| ResolverClient.StrippedNotEof | CLIENT.py:133 | no stripped query is the termination message |
| ResolverClient.RunRaisesWithoutEof | CLIENT.py:132-136 | too few replies make the run raise; it has sent a prefix of the stripped queries and no termination message |
| ResolverClient.Client.constructor | CLIENT.py:72-73 | a new client has written nothing and holds the connection it was given |
| ResolverClient.Client.Output | CLIENT.py:80-82 | `output` appends the message and a line break |
| ResolverClient.Client.ResolveDns | CLIENT.py:110-118 | `resolve_DNS` changes the state exactly as `ResolveStep` |
| ResolverClient.Client.RunClient | CLIENT.py:132-136 | the query loop and `close_RS` change the state exactly as `ClientRun` |

## Left out

- Sockets are not modelled: creation, `bind`, `listen`, `accept`, `connect`, `kill`, and the byte-level `send` and `recv`. A connection is a transcript, and `accept`/`connect` become parameters (`Start(accepted)`, `ConnectTld(..., comLink, eduLink)`, `Client(link)`).
- TCP message boundaries are not modelled. Each `send` is assumed to arrive as exactly one `recv`.
- The 256-byte receive limit and UTF-8 encoding are not modelled. `lower()` is ASCII lower-casing.
- A `recv` with nothing left to read is modelled as raising. A real peer would block, or return `''` once the other end has closed; the client would then write an empty line.
- A blank query line is stripped to the empty string and sent; a real `send(b"")` puts nothing on the wire, so the real client then waits in `recv_RS` for a reply that never comes. `ResolveStep` instead delivers the empty message, and the root server answers it with `" - Error: HOST NOT FOUND"`.
- Threading, the `input()` shutdown, the random sleeps and `exit()` are not modelled.
- File reading and writing, `sys.argv`, `print`/`log` and `localhostIP` are not modelled. The table file arrives as its list of lines, and the client's output file is the sequence `out`.
- The tables in the source are class attributes (`RS_table`, `TS_table`) shared by every instance. Each process creates one server, so the model gives each server its own table.
- `find_NS_entry` is never called, and is not modelled.
- The `except Exception: pass` of `run_tserver`, and the re-raise of `run_rserver`, are not modelled. `Start` returns the `Raised` outcome instead.
- `Record.__str__` on a record with a missing field raises `AttributeError`. It is modelled as `Serialise` returning `None`. The exception's text is not modelled.
- `connectTLD` on a found record without an `ip` is modelled as `LookupRaised`. Such a record cannot come from `Parse`, because an `NS` flag needs an `ip` word.

=== FILE: authority.dfy ===
/** A top-level server (`TServer`): it answers each query from its own table
    and never contacts another server. On the termination message it closes
    the connection but still returns `True`, so its serving loop goes on and
    ends only when the next read fails on the closed connection. */
module AuthorityServer {
  import opened Wrappers
  import opened DnsRecord
  import opened RecordTable
  import opened Session

  datatype Action = EndSession | Reply(text: string) | Fault

  /** What `run` does with one message: the termination message ends the
      session, a key of the table is answered with its record, and any
      other message with the not-found reply. A stored record that lacks a
      field cannot be formatted, and the attempt raises. */
  function Answer(t: Table, msg: string): Action
  {
    if msg == EOF_SIGNAL then EndSession
    else if msg in t.entries then
      match Serialise(t.entries[msg])
      case Some(text) => Reply(text)
      case None => Fault
    else Reply(NotFoundReply(msg))
  }

  datatype State = State(table: Table, conn: Conn)

  /** One call of `run` on the accepted connection `conn`. */
  function RunStep(s: State): (r: (Step, State))
    ensures r.1.table == s.table
    ensures r.0 != Stop
    ensures r.0 == Continue ==> |r.1.conn.inbox| < |s.conn.inbox|
    ensures r.0 == Continue ==>
      s.conn.inbox != [] && r.1.conn.received == s.conn.received + [s.conn.inbox[0]]
    ensures |r.1.conn.inbox| <= |s.conn.inbox|
  {
    if !s.conn.CanRecv() then (Raised, s)
    else
      var msg := s.conn.inbox[0];
      var c := s.conn.Recv();
      match Answer(s.table, msg)
      case EndSession => (Continue, State(s.table, c.Close()))
      case Reply(text) => (Continue, State(s.table, c.Send(text)))
      case Fault => (Raised, State(s.table, c))
  }

  /** The loop `while self.run(): pass`. */
  function ServeLoop(s: State): (r: (Step, State))
    decreases |s.conn.inbox|
  {
    var (step, next) := RunStep(s);
    if step == Continue then ServeLoop(next) else (step, next)
  }

  /** Every record of the table can be formatted. */
  predicate Complete(t: Table)
  {
    forall k :: k in t.entries ==> Serialise(t.entries[k]).Some?
  }

  /** The reply to a query when every record can be formatted. */
  function ReplyTo(t: Table, msg: string): string
    requires Complete(t)
  {
    if msg in t.entries then Serialise(t.entries[msg]).value else NotFoundReply(msg)
  }

  /** The replies sent for `msgs`, one per message. */
  function Replies(t: Table, msgs: seq<string>): (r: seq<string>)
    requires Complete(t)
    ensures |r| == |msgs|
  {
    if msgs == [] then [] else [ReplyTo(t, msgs[0])] + Replies(t, msgs[1..])
  }

  // ---------------------------------------------------------------------
  // Properties of one step

  /** The termination message closes the connection without a reply, yet the
      step returns `True`; the next step then raises on the closed
      connection and changes nothing. */
  lemma EofClosesButContinues(s: State)
    requires s.conn.CanRecv() && s.conn.inbox[0] == EOF_SIGNAL
    ensures var (step, next) := RunStep(s);
      step == Continue && !next.conn.open && next.conn.sent == s.conn.sent
      && RunStep(next) == (Raised, next)
  {
  }

  /** A query whose record, if any, can be formatted is answered with
      exactly one reply, on the same connection: the record when the query
      is a key, the not-found reply otherwise. */
  lemma QueryAnswered(s: State)
    requires s.conn.CanRecv() && s.conn.inbox[0] != EOF_SIGNAL
    requires s.conn.inbox[0] !in s.table.entries || Serialise(s.table.entries[s.conn.inbox[0]]).Some?
    ensures var msg := s.conn.inbox[0];
      var (step, next) := RunStep(s);
      step == Continue && next.conn.open
      && next.conn.received == s.conn.received + [msg]
      && next.conn.sent == s.conn.sent
        + [if msg in s.table.entries then Serialise(s.table.entries[msg]).value else NotFoundReply(msg)]
  {
  }

  /** A query whose stored record lacks a field reads the query, sends
      nothing and raises. */
  lemma UnformattableRecordRaises(s: State)
    requires s.conn.CanRecv() && s.conn.inbox[0] != EOF_SIGNAL
    requires s.conn.inbox[0] in s.table.entries && Serialise(s.table.entries[s.conn.inbox[0]]).None?
    ensures var (step, next) := RunStep(s);
      step == Raised && next.conn.open
      && next.conn.received == s.conn.received + [s.conn.inbox[0]]
      && next.conn.sent == s.conn.sent
  {
  }

  // ---------------------------------------------------------------------
  // Properties of the serving loop

  /** `run` returns `True` on every path, so the serving loop never ends by
      `run` returning `False`: it always ends by an exception. */
  lemma {:induction false} ServeLoopEndsByRaising(s: State)
    ensures ServeLoop(s).0 == Raised
    decreases |s.conn.inbox|
  {
    var (step, next) := RunStep(s);
    if step == Continue {
      ServeLoopEndsByRaising(next);
    }
  }

  /** What a session that starts from `s` sends by the time it ends on
      `out`: one reply per query before the first termination message, in
      order, and nothing else. */
  ghost predicate SentReplies(s: State, out: Conn)
    requires Complete(s.table)
  {
    out.sent == s.conn.sent + Replies(s.table, BeforeEof(s.conn.inbox))
  }

  /** What a session that starts from `s` reads by the time it ends on `out`:
      it stops right after the first termination message and closes the
      connection, or reads the whole input and leaves it open. */
  ghost predicate ReadUpToEof(s: State, out: Conn)
  {
    var msgs := s.conn.inbox;
    out.received == s.conn.received + UpToEof(msgs)
    && (out.open <==> |BeforeEof(msgs)| == |msgs|)
  }

  /** A reply to the first query, then the replies of the rest. */
  lemma SentRepliesStep(s: State, next: State, out: Conn)
    requires Complete(s.table) && next.table == s.table
    requires s.conn.inbox != [] && s.conn.inbox[0] != EOF_SIGNAL
    requires next.conn.inbox == s.conn.inbox[1..]
    requires next.conn.sent == s.conn.sent + [ReplyTo(s.table, s.conn.inbox[0])]
    requires SentReplies(next, out)
    ensures SentReplies(s, out)
  {
    var msgs := s.conn.inbox;
    var rest := BeforeEof(msgs[1..]);
    EofCons(msgs);
    assert ([msgs[0]] + rest)[1..] == rest;
    assert Replies(s.table, [msgs[0]] + rest) == [ReplyTo(s.table, msgs[0])] + Replies(s.table, rest);
    assert out.sent == (s.conn.sent + [ReplyTo(s.table, msgs[0])]) + Replies(s.table, rest);
  }

  /** Reading the first query, then what the rest of the session reads. */
  lemma ReadUpToEofStep(s: State, next: State, out: Conn)
    requires s.conn.inbox != [] && s.conn.inbox[0] != EOF_SIGNAL
    requires next.conn.inbox == s.conn.inbox[1..]
    requires next.conn.received == s.conn.received + [s.conn.inbox[0]]
    requires ReadUpToEof(next, out)
    ensures ReadUpToEof(s, out)
  {
    var msgs := s.conn.inbox;
    EofCons(msgs);
    assert |BeforeEof(msgs)| == |msgs| <==> |BeforeEof(msgs[1..])| == |msgs[1..]|;
    assert out.received == (s.conn.received + [msgs[0]]) + UpToEof(msgs[1..]);
  }

  /** Over a whole session with complete records, the serving loop leaves
      the transcript above. */
  lemma {:induction false} ServeLoopTranscript(s: State)
    requires s.conn.open && Complete(s.table)
    ensures SentReplies(s, ServeLoop(s).1.conn) && ReadUpToEof(s, ServeLoop(s).1.conn)
    decreases |s.conn.inbox|
  {
    var msgs := s.conn.inbox;
    if msgs == [] {
      assert ServeLoop(s) == (Raised, s);
      return;
    }
    var next := RunStep(s).1;
    if msgs[0] == EOF_SIGNAL {
      EofClosesButContinues(s);
      assert ServeLoop(s) == ServeLoop(next) == (Raised, next);
      return;
    }
    QueryAnswered(s);
    assert ServeLoop(s) == ServeLoop(next);
    ServeLoopTranscript(next);
    SentRepliesStep(s, next, ServeLoop(next).1.conn);
    ReadUpToEofStep(s, next, ServeLoop(next).1.conn);
  }

  /** A top-level server process: its table and the one connection it
      accepts. */
  class TopLevelServer {
    var table: Table
    var conn: Conn

    predicate Valid()
      reads this
    {
      table.Valid()
    }

    function Snapshot(): State
      reads this
    {
      State(table, conn)
    }

    /** `TServer()`: an empty table, no connection accepted yet. */
    constructor ()
      ensures Valid() && table == Empty && !conn.open
    {
      table := Empty;
      conn := Conn([], [], [], false);
    }

    /** `TS_table.update(read_table_from_file(...))` with the file's lines:
        the loaded entries override existing ones and every other entry is
        kept. A malformed line leaves the table as it was (the exception
        stops the server before it starts). */
    method Load(lines: seq<string>) returns (res: Result<Table, ParseError>)
      requires Valid()
      modifies this
      ensures Valid() && conn == old(conn)
      ensures res == Build(Empty, lines)
      ensures res.Ok? ==> res.value.Valid()
      ensures res.Ok? ==> table == Update(old(table), res.value)
      ensures res.Err? ==> table == old(table)
    {
      res := ListToTable(lines);
      if res.Ok? {
        BuildKeepsOrder(Empty, lines);
        table := Update(table, res.value);
      }
    }

    /** `run`: read one message and act on it. */
    method Run() returns (step: Step)
      requires Valid()
      modifies this
      ensures Valid()
      ensures (step, Snapshot()) == RunStep(old(Snapshot()))
    {
      if !conn.CanRecv() {
        return Raised;
      }
      var msg := conn.inbox[0];
      conn := conn.Recv();
      if msg == EOF_SIGNAL {
        conn := conn.Close();
        return Continue;
      }
      if msg in table.entries {
        var text := Serialise(table.entries[msg]);
        if text.None? {
          return Raised;
        }
        conn := conn.Send(text.value);
      } else {
        conn := conn.Send(NotFoundReply(msg));
      }
      step := Continue;
    }

    /** `start`: take the accepted connection, then `while self.run(): pass`. */
    method Start(accepted: Conn) returns (last: Step)
      requires Valid()
      modifies this
      ensures Valid()
      ensures (last, Snapshot()) == ServeLoop(State(old(table), accepted))
      ensures last == Raised
    {
      conn := accepted;
      ghost var start := Snapshot();
      last := Continue;
      while last == Continue
        invariant Valid() && table == old(table)
        invariant last != Stop
        invariant ServeLoop(start) == (if last == Continue then ServeLoop(Snapshot()) else (last, Snapshot()))
        decreases |conn.inbox| + (if last == Continue then 1 else 0)
      {
        last := Run();
      }
      ServeLoopEndsByRaising(start);
    }
  }
}

=== FILE: client.dfy ===
/** The resolver client (`Client` and `run_client`): it sends each query
    line, stripped, to the root server, reads one reply per query and
    writes what it makes of the reply to its output; at the end it sends
    the termination message once. */
module ResolverClient {
  import opened Wrappers
  import opened Text
  import opened DnsRecord
  import opened Session

  /** What `resolve_DNS` writes for a reply, before `output` adds the line
      break: the normalised record for an `A` record, nothing for an `NS`
      record, and the raw reply when parsing raises or the record has no
      flag (the bare `except` catches both). */
  function Interpret(reply: string): (line: Option<string>)
    ensures line.None? <==> Parse(reply).Ok? && Parse(reply).value.flag == Some(NS)
    ensures line.Some? && line.value != reply ==> Parse(reply).Ok? && Parse(reply).value.flag == Some(A)
  {
    match Parse(reply)
    case Err(_) => Some(reply)
    case Ok(rec) =>
      match rec.flag
      case None => Some(reply)
      case Some(f) => if f == A then Serialise(rec) else None
  }

  /** A space, a word, then text that starts with whitespace or is empty. */
  lemma SplitSpaceWordThen(w: string, rest: string)
    requires IsWord(w) && (rest == [] || IsSpace(rest[0]))
    ensures Split(" " + w + rest) == [w] + Split(rest)
  {
    SplitSpaceWord(w);
    if rest == [] {
      assert " " + w + rest == " " + w;
    } else {
      SplitAppend(" " + w, rest);
    }
  }

  /** Five words, each after one space, split back into those words. */
  lemma SplitFiveWords(a: string, b: string, c: string, d: string, e: string)
    requires IsWord(a) && IsWord(b) && IsWord(c) && IsWord(d) && IsWord(e)
    ensures Split(" " + a + (" " + b + (" " + c + (" " + d + (" " + e))))) == [a, b, c, d, e]
  {
    SplitSpaceWord(e);
    SplitSpaceWordThen(d, " " + e);
    SplitSpaceWordThen(c, " " + d + (" " + e));
    SplitSpaceWordThen(b, " " + c + (" " + d + (" " + e)));
    SplitSpaceWordThen(a, " " + b + (" " + c + (" " + d + (" " + e))));
  }

  /** The words of the text the not-found reply appends are words. */
  lemma NotFoundTailWords()
    ensures IsWord("-") && IsWord("Error:") && IsWord("HOST") && IsWord("NOT") && IsWord("FOUND")
  {
  }

  /** That text is those words, each after one space. */
  lemma NotFoundTailSpaced(tail: string)
    requires tail == " - Error: HOST NOT FOUND"
    ensures tail == " " + "-" + (" " + "Error:" + (" " + "HOST" + (" " + "NOT" + (" " + "FOUND"))))
  {
  }

  /** The words of the text the not-found reply appends. */
  lemma SplitNotFoundTail(tail: string)
    requires tail == " - Error: HOST NOT FOUND"
    ensures Split(tail) == ["-", "Error:", "HOST", "NOT", "FOUND"]
  {
    NotFoundTailWords();
    NotFoundTailSpaced(tail);
    SplitFiveWords("-", "Error:", "HOST", "NOT", "FOUND");
  }

  /** The not-found reply, split into words. */
  lemma SplitNotFound(name: string)
    ensures Split(NotFoundReply(name)) == Split(name) + ["-", "Error:", "HOST", "NOT", "FOUND"]
  {
    SplitNotFoundTail(" - Error: HOST NOT FOUND");
    SplitAppend(name, " - Error: HOST NOT FOUND");
  }

  /** The not-found reply for a name of at most two words has a third word
      (`-`, `Error:` or `HOST`) that is not a flag, so parsing raises and
      the reply is written as it came. */
  lemma NotFoundWrittenRaw(name: string)
    requires |Split(name)| <= 2
    ensures Parse(NotFoundReply(name)).Err?
    ensures Interpret(NotFoundReply(name)) == Some(NotFoundReply(name))
  {
    SplitNotFound(name);
    SplitStrip(NotFoundReply(name));
  }

  /** A query of three or more words whose third word is `A` makes the
      not-found reply parse as an address record, so the client writes the
      query's first three words instead of the error. */
  lemma NotFoundForThreeWordQuery(name: string)
    requires |Split(name)| >= 3 && Split(name)[2] == "A"
    ensures var w := Split(name);
      Interpret(NotFoundReply(name)) == Some(w[0] + " " + w[1] + " " + "A")
  {
    var reply := NotFoundReply(name);
    SplitNotFound(name);
    SplitStrip(reply);
    var rec := Parse(reply).value;
    assert rec.flag == Some(A);
    assert Interpret(reply) == Serialise(rec);
  }

  /** An address record is written in its single-space form, however the
      reply spaced its words and whatever words follow the third. */
  lemma AddressNormalised(reply: string)
    requires Parse(reply).Ok? && Parse(reply).value.flag == Some(A)
    ensures var w := Split(reply);
      |w| >= 3 && Interpret(reply) == Some(w[0] + " " + w[1] + " " + "A")
  {
    SerialiseNormalises(reply);
    SplitStrip(reply);
    assert Split(reply)[2] == "A";
    assert Interpret(reply) == Serialise(Parse(reply).value);
  }

  /** An address record the top-level server sent as `"h i A"` is written
      unchanged. */
  lemma AddressRecordVerbatim(h: string, i: string)
    requires IsWord(h) && IsWord(i)
    ensures var reply := h + " " + i + " " + "A";
      Interpret(reply) == Some(reply)
  {
    var reply := h + " " + i + " " + "A";
    ParseSerialiseRoundTrip(h, i, A);
    assert Parse(reply) == Ok(Record(Some(h), Some(i), Some(A)));
    assert Interpret(reply) == Serialise(Record(Some(h), Some(i), Some(A)));
  }

  /** A reply of fewer than three words leaves the flag unset; reading it
      raises and the reply is written as it came. */
  lemma ShortReplyRaw(reply: string)
    requires |Split(reply)| < 3
    ensures Interpret(reply) == Some(reply)
  {
    SplitStrip(reply);
  }

  // ---------------------------------------------------------------------
  // The client's state and its steps

  /** The connection to the root server and the text written so far, one
      element per `write`. */
  datatype ClientState = ClientState(conn: Conn, out: seq<string>)

  /** `output(msg)`: the message and a line break. */
  function Emit(s: ClientState, line: Option<string>): (r: ClientState)
    ensures r.conn == s.conn
    ensures line.Some? ==> r.out == s.out + [line.value + "\n"]
    ensures line.None? ==> r.out == s.out
  {
    match line
    case Some(l) => s.(out := s.out + [l + "\n"])
    case None => s
  }

  /** `resolve_DNS(hostname)`: one send, one receive, then at most one
      write. A send on a closed connection or a receive with nothing to
      read raises (`false`). */
  function ResolveStep(s: ClientState, hostname: string): (r: (bool, ClientState))
  {
    if !s.conn.open then (false, s)
    else
      var asked := s.conn.Send(hostname);
      if !asked.CanRecv() then (false, s.(conn := asked))
      else
        var reply := asked.inbox[0];
        (true, Emit(s.(conn := asked.Recv()), Interpret(reply)))
  }

  /** The `for` loop of `run_client` over the names it sends, in order; an
      exception ends the run. */
  function ResolveAll(s: ClientState, names: seq<string>): (r: (bool, ClientState))
    decreases |names|
  {
    if names == [] then (true, s)
    else
      var (ok, next) := ResolveStep(s, names[0]);
      if !ok then (false, next) else ResolveAll(next, names[1..])
  }

  /** The queries as sent: each line stripped, blank ones included. */
  function Stripped(queries: seq<string>): (r: seq<string>)
    ensures |r| == |queries|
  {
    seq(|queries|, i requires 0 <= i < |queries| => Strip(queries[i]))
  }

  /** `run_client` after connecting: resolve every stripped query, then
      `close_RS()`, which sends the termination message. */
  function ClientRun(s: ClientState, queries: seq<string>): (r: (bool, ClientState))
  {
    var (ok, next) := ResolveAll(s, Stripped(queries));
    if !ok then (false, next)
    else if !next.conn.open then (false, next)
    else (true, next.(conn := next.conn.Send(EOF_SIGNAL)))
  }

  // ---------------------------------------------------------------------
  // Properties of a run

  /** What is written for one reply. */
  function LineFor(reply: string): (r: seq<string>)
    ensures |r| <= 1
  {
    match Interpret(reply)
    case Some(l) => [l + "\n"]
    case None => []
  }

  /** What is written for a sequence of replies: one line for each reply
      that is not an `NS` record, in order. */
  function Written(replies: seq<string>): (r: seq<string>)
    ensures |r| <= |replies|
  {
    if replies == [] then [] else LineFor(replies[0]) + Written(replies[1..])
  }

  /** What a run that resolved `names` has done on the connection: sent
      each name in order and read one reply for each. */
  ghost predicate Exchanged(s: ClientState, names: seq<string>, out: ClientState)
  {
    var k := |names|;
    k <= |s.conn.inbox| && out.conn.open == s.conn.open
    && out.conn.sent == s.conn.sent + names
    && out.conn.received == s.conn.received + s.conn.inbox[..k]
    && out.conn.inbox == s.conn.inbox[k..]
  }

  /** What a run that read the first `k` replies has written. */
  ghost predicate Wrote(s: ClientState, k: nat, out: ClientState)
    requires k <= |s.conn.inbox|
  {
    out.out == s.out + Written(s.conn.inbox[..k])
  }

  ghost predicate ResolvedAll(s: ClientState, names: seq<string>, out: ClientState)
  {
    Exchanged(s, names, out) && Wrote(s, |names|, out)
  }

  /** One name exchanged followed by the rest exchanged. */
  lemma ExchangedStep(s: ClientState, names: seq<string>, next: ClientState, out: ClientState)
    requires names != [] && s.conn.inbox != []
    requires next.conn.sent == s.conn.sent + [names[0]]
    requires next.conn.received == s.conn.received + [s.conn.inbox[0]]
    requires next.conn.inbox == s.conn.inbox[1..]
    requires next.conn.open == s.conn.open
    requires Exchanged(next, names[1..], out)
    ensures Exchanged(s, names, out)
  {
    var k := |names|;
    var msgs := s.conn.inbox;
    var later := msgs[1..][..k - 1];
    assert msgs[..k] == [msgs[0]] + later;
    assert msgs[1..][k - 1..] == msgs[k..];
    assert names == [names[0]] + names[1..];
    assert out.conn.sent == (s.conn.sent + [names[0]]) + names[1..];
    assert out.conn.received == (s.conn.received + [msgs[0]]) + later;
  }

  /** One reply's line followed by the rest's lines. */
  lemma WroteStep(s: ClientState, k: nat, next: ClientState, out: ClientState)
    requires 0 < k <= |s.conn.inbox|
    requires next.conn.inbox == s.conn.inbox[1..]
    requires next.out == s.out + LineFor(s.conn.inbox[0])
    requires Wrote(next, k - 1, out)
    ensures Wrote(s, k, out)
  {
    var msgs := s.conn.inbox;
    var later := msgs[1..][..k - 1];
    assert msgs[..k] == [msgs[0]] + later;
    assert Written([msgs[0]] + later) == LineFor(msgs[0]) + Written(later) by {
      assert ([msgs[0]] + later)[1..] == later;
    }
    assert out.out == (s.out + LineFor(msgs[0])) + Written(later);
  }

  /** The effect of one `resolve_DNS` call that succeeds. */
  lemma ResolveStepEffect(s: ClientState, name: string)
    requires s.conn.open && s.conn.inbox != []
    ensures var (ok, next) := ResolveStep(s, name);
      ok
      && next.conn.sent == s.conn.sent + [name]
      && next.conn.received == s.conn.received + [s.conn.inbox[0]]
      && next.conn.inbox == s.conn.inbox[1..]
      && next.conn.open
      && next.out == s.out + LineFor(s.conn.inbox[0])
  {
  }

  /** The loop succeeds exactly when the connection is open and the server
      has a reply for every name; then it has sent the names in order, read
      one reply each, and written what those replies give. */
  lemma {:induction false} ResolveAllTranscript(s: ClientState, names: seq<string>)
    ensures ResolveAll(s, names).0 <==> names == [] || (s.conn.open && |names| <= |s.conn.inbox|)
    ensures ResolveAll(s, names).0 ==> ResolvedAll(s, names, ResolveAll(s, names).1)
    decreases |names|
  {
    if names == [] {
      assert s.conn.inbox[..0] == [];
      assert s.conn.inbox[0..] == s.conn.inbox;
      assert s.conn.sent + names == s.conn.sent;
      assert s.out + Written([]) == s.out;
      assert s.conn.received + [] == s.conn.received;
      return;
    }
    if !s.conn.open {
      assert ResolveStep(s, names[0]).0 == false;
      return;
    }
    if s.conn.inbox == [] {
      assert !s.conn.Send(names[0]).CanRecv();
      assert ResolveStep(s, names[0]).0 == false;
      return;
    }
    var next := ResolveStep(s, names[0]).1;
    ResolveStepEffect(s, names[0]);
    assert ResolveAll(s, names) == ResolveAll(next, names[1..]);
    ResolveAllTranscript(next, names[1..]);
    if ResolveAll(next, names[1..]).0 {
      ExchangedStep(s, names, next, ResolveAll(next, names[1..]).1);
      WroteStep(s, |names|, next, ResolveAll(next, names[1..]).1);
    }
  }

  /** A whole run: when the server answers every query, the client sends
      the stripped queries in input order and then the termination message
      exactly once, reads one reply per query and nothing after, and writes
      at most one line per query, in order. */
  lemma RunTranscript(s: ClientState, queries: seq<string>)
    requires s.conn.open && |queries| <= |s.conn.inbox|
    ensures var (ok, out) := ClientRun(s, queries);
      ok
      && out.conn.sent == s.conn.sent + Stripped(queries) + [EOF_SIGNAL]
      && out.conn.received == s.conn.received + s.conn.inbox[..|queries|]
      && out.out == s.out + Written(s.conn.inbox[..|queries|])
      && |out.out| <= |s.out| + |queries|
  {
    ResolveAllTranscript(s, Stripped(queries));
  }

  /** However the loop ends, what it has sent is a prefix of `names`, in
      order. */
  lemma {:induction false} ResolveAllSentPrefix(s: ClientState, names: seq<string>)
    ensures var out := ResolveAll(s, names).1;
      var n := |out.conn.sent| - |s.conn.sent|;
      0 <= n <= |names| && out.conn.sent == s.conn.sent + names[..n]
    decreases |names|
  {
    if names == [] {
      assert s.conn.sent + names[..0] == s.conn.sent;
    } else if !s.conn.open {
      assert ResolveAll(s, names) == (false, s);
      assert s.conn.sent + names[..0] == s.conn.sent;
    } else if s.conn.inbox == [] {
      assert ResolveAll(s, names) == (false, s.(conn := s.conn.Send(names[0])));
      assert names[..1] == [names[0]];
    } else {
      ResolveStepEffect(s, names[0]);
      var next := ResolveStep(s, names[0]).1;
      assert ResolveAll(s, names) == ResolveAll(next, names[1..]);
      ResolveAllSentPrefix(next, names[1..]);
      SentPrefixCons(s.conn.sent, names, ResolveAll(next, names[1..]).1.conn.sent);
    }
  }

  /** Sending the first name, then a prefix of the rest, sends a prefix. */
  lemma SentPrefixCons(sent: seq<string>, names: seq<string>, out: seq<string>)
    requires names != []
    requires var n := |out| - |sent| - 1;
      0 <= n <= |names| - 1 && out == (sent + [names[0]]) + names[1..][..n]
    ensures var n := |out| - |sent|;
      0 <= n <= |names| && out == sent + names[..n]
  {
    var n := |out| - |sent| - 1;
    assert names[..n + 1] == [names[0]] + names[1..][..n];
  }

  /** No stripped query is the termination message, which is all
      whitespace. */
  lemma StrippedNotEof(queries: seq<string>)
    ensures EOF_SIGNAL !in Stripped(queries)
  {
    forall i | 0 <= i < |queries|
      ensures Stripped(queries)[i] != EOF_SIGNAL
    {
      StripTrims(queries[i]);
    }
  }

  /** A server that runs out of replies makes the run raise before the
      termination message is sent: the client has sent its stripped queries
      up to some point, in order, and nothing else. */
  lemma RunRaisesWithoutEof(s: ClientState, queries: seq<string>)
    requires |queries| > |s.conn.inbox|
    ensures !ClientRun(s, queries).0
    ensures var out := ClientRun(s, queries).1;
      var n := |out.conn.sent| - |s.conn.sent|;
      0 <= n <= |queries| && out.conn.sent == s.conn.sent + Stripped(queries)[..n]
      && EOF_SIGNAL !in out.conn.sent[|s.conn.sent|..]
  {
    var names := Stripped(queries);
    ResolveAllTranscript(s, names);
    ResolveAllSentPrefix(s, names);
    StrippedNotEof(queries);
    var out := ClientRun(s, queries).1;
    var n := |out.conn.sent| - |s.conn.sent|;
    assert out.conn.sent[|s.conn.sent|..] == names[..n];
  }

  // ---------------------------------------------------------------------
  // The client object

  class Client {
    var conn: Conn
    var out: seq<string>

    function Snapshot(): ClientState
      reads this
    {
      ClientState(conn, out)
    }

    /** `Client(ofile)` followed by `connect_RS`: nothing written yet, and
        the connection `link` that connecting to the root server gives. */
    constructor (link: Conn)
      ensures conn == link && out == []
    {
      conn := link;
      out := [];
    }

    /** `output(msg)`: append the message and a line break. */
    method Output(msg: string)
      modifies this
      ensures conn == old(conn)
      ensures out == old(out) + [msg + "\n"]
    {
      out := out + [msg + "\n"];
    }

    /** `resolve_DNS(hostname)`; `false` when it raises. */
    method ResolveDns(hostname: string) returns (ok: bool)
      modifies this
      ensures (ok, Snapshot()) == ResolveStep(old(Snapshot()), hostname)
    {
      if !conn.open {
        return false;
      }
      conn := conn.Send(hostname);
      if !conn.CanRecv() {
        return false;
      }
      var reply := conn.inbox[0];
      conn := conn.Recv();
      var parsed := Parse(reply);
      if parsed.Err? || parsed.value.flag.None? {
        Output(reply);
      } else if parsed.value.flag.value == A {
        Output(Serialise(parsed.value).value);
      }
      return true;
    }

    /** `run_client` after connecting: the query loop, then `close_RS()`.
        `false` when an exception ends the run. */
    method RunClient(queries: seq<string>) returns (ok: bool)
      modifies this
      ensures (ok, Snapshot()) == ClientRun(old(Snapshot()), queries)
    {
      ghost var start := Snapshot();
      ghost var names := Stripped(queries);
      for i := 0 to |queries|
        invariant ResolveAll(start, names) == ResolveAll(Snapshot(), names[i..])
      {
        assert names[i..] == [Strip(queries[i])] + names[i + 1..];
        ok := ResolveDns(Strip(queries[i]));
        if !ok {
          return;
        }
      }
      if !conn.open {
        return false;
      }
      conn := conn.Send(EOF_SIGNAL);
      ok := true;
    }
  }
}

=== FILE: record.dfy ===
/** One line of a record file or one reply on the wire: `hostname ip flag`,
    where the flag is `A` (an address) or `NS` (a delegation to a top-level
    server). The same `Record` class is duplicated verbatim in the root
    server, the top-level server and the client; it is modelled once here. */
module DnsRecord {
  import opened Wrappers
  import opened Text

  datatype Flag = A | NS

  function FlagText(f: Flag): string
  {
    match f
    case A => "A"
    case NS => "NS"
  }

  /** The Python object sets an attribute only when its word is present, so
      every field may be unset. */
  datatype Record = Record(hostname: Option<string>, ip: Option<string>, flag: Option<Flag>)

  /** The `ValueError("Unexpected DNS type: ...")` raised for a third word
      other than `A` or `NS`; it carries that word. */
  datatype ParseError = UnexpectedType(word: string)

  /** What a parsed record always looks like: its fields are words, set from
      the left with none skipped. */
  predicate WellFormed(r: Record)
  {
    (r.flag.Some? ==> r.ip.Some?) && (r.ip.Some? ==> r.hostname.Some?)
    && (r.hostname.Some? ==> IsWord(r.hostname.value))
    && (r.ip.Some? ==> IsWord(r.ip.value))
  }

  /** `Record(line)`: split the stripped line on whitespace and fill the
      fields from the first three words; later words are ignored. */
  function Parse(line: string): (r: Result<Record, ParseError>)
    ensures r.Ok? ==> WellFormed(r.value)
  {
    var words := Split(Strip(line));
    if |words| > 2 && words[2] != "A" && words[2] != "NS" then
      Err(UnexpectedType(words[2]))
    else
      Ok(Record(
        if |words| > 0 then Some(words[0]) else None,
        if |words| > 1 then Some(words[1]) else None,
        if |words| > 2 then Some(if words[2] == "A" then A else NS) else None))
  }

  /** A parsed record has a hostname exactly when the line is not blank. */
  lemma ParseNamesHost(line: string)
    requires Parse(line).Ok?
    ensures Parse(line).value.hostname.Some? <==> |Strip(line)| > 0
  {
    StripEmptyIffNoWords(line);
    SplitStrip(line);
  }

  /** `str(record)`, the format `"{} {} {}"`; formatting an unset attribute
      raises, which is `None` here. */
  function Serialise(r: Record): (s: Option<string>)
    ensures s.Some? <==> r.hostname.Some? && r.ip.Some? && r.flag.Some?
  {
    if r.hostname.Some? && r.ip.Some? && r.flag.Some? then
      Some(r.hostname.value + " " + r.ip.value + " " + FlagText(r.flag.value))
    else
      None
  }

  /** `get_TLD()`: the lower-cased text after the last `.` of the hostname.
      A hostname without a `.` raises, and so does an unset hostname; both
      are `None`. */
  function GetTLD(r: Record): Option<string>
  {
    match r.hostname
    case None => None
    case Some(h) =>
      var i := RFind(h, '.');
      if i >= 0 then Some(Lower(h[i + 1..])) else None
  }

  // ---------------------------------------------------------------------
  // Parsing and serialising

  /** Three words joined by single spaces split back into those words. */
  lemma SplitJoin3(h: string, i: string, k: string)
    requires IsWord(h) && IsWord(i) && IsWord(k)
    ensures Split(h + " " + i + " " + k) == [h, i, k]
  {
    assert h + " " + i + " " + k == (h + (" " + i)) + (" " + k);
    SplitAppend(h + (" " + i), " " + k);
    SplitAppend(h, " " + i);
    SplitWord(h);
    SplitSpaceWord(i);
    SplitSpaceWord(k);
  }

  /** Round trip: a line `"h i k"` with single spaces and a known flag
      parses to the record with those three fields, and that record
      serialises back to exactly the same line. */
  lemma ParseSerialiseRoundTrip(h: string, i: string, k: Flag)
    requires IsWord(h) && IsWord(i)
    ensures var line := h + " " + i + " " + FlagText(k);
      Parse(line) == Ok(Record(Some(h), Some(i), Some(k)))
      && Serialise(Record(Some(h), Some(i), Some(k))) == Some(line)
  {
    SplitJoin3(h, i, FlagText(k));
    SplitStrip(h + " " + i + " " + FlagText(k));
  }

  /** Serialising a complete, well-formed record and parsing the text gives
      the record back. */
  lemma SerialiseParseRoundTrip(r: Record)
    requires WellFormed(r) && r.flag.Some?
    ensures Serialise(r).Some? && Parse(Serialise(r).value) == Ok(r)
  {
    ParseSerialiseRoundTrip(r.hostname.value, r.ip.value, r.flag.value);
  }

  /** A third word other than exactly `A` or `NS` (the test is
      case-sensitive) is a parse error naming that word. */
  lemma UnknownTypeRejected(line: string)
    requires |Split(line)| > 2
    ensures Parse(line).Err? <==> Split(line)[2] != "A" && Split(line)[2] != "NS"
    ensures Parse(line).Err? ==> Parse(line).error == UnexpectedType(Split(line)[2])
  {
    SplitStrip(line);
  }

  /** A line with one or two words still makes a record: the fields whose
      words are present are set, the flag stays unset. */
  lemma ShortLinePartial(line: string)
    requires 0 < |Split(line)| <= 2
    ensures Parse(line).Ok?
    ensures Parse(line).value.hostname == Some(Split(line)[0])
    ensures Parse(line).value.ip == (if |Split(line)| == 2 then Some(Split(line)[1]) else None)
    ensures Parse(line).value.flag == None
  {
    SplitStrip(line);
  }

  /** Only the first three words matter: any line with three or more words
      parses exactly as those three words joined by single spaces. */
  lemma ParseIgnoresExtraWords(line: string)
    requires |Split(line)| >= 3
    ensures var w := Split(line);
      Parse(line) == Parse(w[0] + " " + w[1] + " " + w[2])
  {
    var w := Split(line);
    SplitStrip(line);
    SplitJoin3(w[0], w[1], w[2]);
    SplitStrip(w[0] + " " + w[1] + " " + w[2]);
  }

  /** A line that parses with a flag serialises to its first three words
      joined by single spaces, whatever whitespace separated them. */
  lemma SerialiseNormalises(line: string)
    requires Parse(line).Ok? && Parse(line).value.flag.Some?
    ensures var w := Split(line);
      |w| >= 3 && Serialise(Parse(line).value) == Some(w[0] + " " + w[1] + " " + w[2])
  {
    SplitStrip(line);
  }

  // ---------------------------------------------------------------------
  // Top-level label

  lemma RFindUnique(s: string, c: char, p: nat)
    requires p < |s| && s[p] == c
    requires forall j :: p < j < |s| ==> s[j] != c
    ensures RFind(s, c) == p
  {
  }

  /** `get_TLD` returns the lower-cased text after the last `.`: for a
      hostname `p + "." + s` where `s` has no `.`, the label is `Lower(s)`. */
  lemma GetTLDIsLastLabel(r: Record, p: string, s: string)
    requires r.hostname == Some(p + "." + s)
    requires forall j :: 0 <= j < |s| ==> s[j] != '.'
    ensures GetTLD(r) == Some(Lower(s))
  {
    var h := p + "." + s;
    assert h[|p|] == '.';
    forall j | |p| < j < |h| ensures h[j] != '.' {
      assert h[j] == s[j - |p| - 1];
    }
    RFindUnique(h, '.', |p|);
    assert h[|p| + 1..] == s;
  }

  /** `get_TLD` fails exactly when the hostname is unset or has no `.`. */
  lemma GetTLDFails(r: Record)
    ensures GetTLD(r).None? <==> r.hostname.None? || forall j :: 0 <= j < |r.hostname.value| ==> r.hostname.value[j] != '.'
  {
    if r.hostname.Some? {
      var h := r.hostname.value;
      if RFind(h, '.') < 0 {
        assert forall j :: 0 <= j < |h| ==> h[j] != '.';
      }
    }
  }
}

=== FILE: root.dfy ===
/** The root server (`RServer`): it answers from its own table when it can,
    otherwise forwards a name ending in `edu` or `com` to the matching
    top-level server and relays that server's reply, and otherwise answers
    that the host was not found. Before serving it finds the two top-level
    servers, either from names it was given or from the `NS` records of its
    table. */
module RootServer {
  import opened Wrappers
  import opened Text
  import opened DnsRecord
  import opened RecordTable
  import opened Session

  // ---------------------------------------------------------------------
  // Finding a top-level server in the table

  /** What the test in `find_TLD_NS_entry` does with one record: `val.flag`
      raises on a record without a flag, and `get_TLD` (called only for an
      `NS` record) raises on a hostname without a `.`. */
  datatype Probe = Skip | Match | Fail

  function ProbeRecord(r: Record, tld: string): (p: Probe)
    ensures p == Fail <==> r.flag.None? || (r.flag == Some(NS) && GetTLD(r).None?)
    ensures p == Match <==> r.flag == Some(NS) && GetTLD(r).Some? && Lower(tld) == Lower(GetTLD(r).value)
  {
    match r.flag
    case None => Fail
    case Some(f) =>
      if f != NS then Skip
      else
        match GetTLD(r)
        case None => Fail
        case Some(last) => if Lower(tld) == Lower(last) then Match else Skip
  }

  /** The outcome of `find_TLD_NS_entry`: the record found, `None`, or an
      exception raised by the test. */
  datatype Lookup = Found(rec: Record) | Absent | Failed

  /** The scan of the table's entries in iteration order, from position
      `from` on; it stops at the first record that matches or raises. */
  function ScanFrom(t: Table, tld: string, from: nat): Lookup
    requires t.Valid() && from <= |t.keys|
    decreases |t.keys| - from
  {
    if from == |t.keys| then Absent
    else
      var rec := t.entries[t.keys[from]];
      match ProbeRecord(rec, tld)
      case Match => Found(rec)
      case Fail => Failed
      case Skip => ScanFrom(t, tld, from + 1)
  }

  /** Every entry in positions `from` to `to` (exclusive) is passed over. */
  predicate SkippedBetween(t: Table, tld: string, from: nat, to: nat)
    requires t.Valid() && from <= to <= |t.keys|
  {
    forall j :: from <= j < to ==> ProbeRecord(t.entries[t.keys[j]], tld) == Skip
  }

  /** The scan's outcome is decided by the first entry that is not passed
      over: a match returns that entry, a raising test raises. */
  lemma {:induction false} ScanStopsAtFirst(t: Table, tld: string, from: nat, j: nat)
    requires t.Valid() && from <= j < |t.keys|
    requires SkippedBetween(t, tld, from, j)
    requires ProbeRecord(t.entries[t.keys[j]], tld) != Skip
    ensures ProbeRecord(t.entries[t.keys[j]], tld) == Match ==> ScanFrom(t, tld, from) == Found(t.entries[t.keys[j]])
    ensures ProbeRecord(t.entries[t.keys[j]], tld) == Fail ==> ScanFrom(t, tld, from) == Failed
    decreases j - from
  {
    if from < j {
      assert ProbeRecord(t.entries[t.keys[from]], tld) == Skip;
      ScanStopsAtFirst(t, tld, from + 1, j);
    }
  }

  /** The scan finds nothing exactly when every entry is passed over. */
  lemma {:induction false} ScanAbsent(t: Table, tld: string, from: nat)
    requires t.Valid() && from <= |t.keys|
    ensures ScanFrom(t, tld, from) == Absent <==> SkippedBetween(t, tld, from, |t.keys|)
    decreases |t.keys| - from
  {
    if from < |t.keys| {
      ScanAbsent(t, tld, from + 1);
      if ProbeRecord(t.entries[t.keys[from]], tld) != Skip {
        assert !SkippedBetween(t, tld, from, |t.keys|);
      }
    }
  }

  /** A record found by the scan is an `NS` record of the table whose label
      is `tld` up to case, and every entry before it is passed over. */
  lemma {:induction false} ScanFoundIsFirstMatch(t: Table, tld: string, from: nat)
    requires t.Valid() && from <= |t.keys|
    requires ScanFrom(t, tld, from).Found?
    ensures exists j :: (from <= j < |t.keys| && SkippedBetween(t, tld, from, j)
      && ProbeRecord(t.entries[t.keys[j]], tld) == Match
      && ScanFrom(t, tld, from).rec == t.entries[t.keys[j]])
    decreases |t.keys| - from
  {
    if ProbeRecord(t.entries[t.keys[from]], tld) == Skip {
      ScanFoundIsFirstMatch(t, tld, from + 1);
      var j :| from + 1 <= j < |t.keys| && SkippedBetween(t, tld, from + 1, j)
        && ProbeRecord(t.entries[t.keys[j]], tld) == Match
        && ScanFrom(t, tld, from + 1).rec == t.entries[t.keys[j]];
      assert SkippedBetween(t, tld, from, j);
    } else {
      assert SkippedBetween(t, tld, from, from);
    }
  }

  /** An `NS` record matches the label it ends with, whatever the case of
      either: the second `lower()` in the test changes nothing. */
  lemma NsRecordMatchesItsLabel(r: Record, p: string, suffix: string, tld: string)
    requires r.flag == Some(NS) && r.hostname == Some(p + "." + suffix)
    requires forall j :: 0 <= j < |suffix| ==> suffix[j] != '.'
    ensures ProbeRecord(r, tld) == Match <==> Lower(tld) == Lower(suffix)
  {
    GetTLDIsLastLabel(r, p, suffix);
    LowerIdempotent(suffix);
  }

  // ---------------------------------------------------------------------
  // Finding both top-level servers

  /** The exceptions `connectTLD` can raise before connecting. */
  datatype StartError = ComRecordNotFound | EduRecordNotFound | LookupRaised

  /** The two hostnames `connectTLD` connects to. */
  datatype Upstreams = Upstreams(com: string, edu: string)

  /** One of the two lookups: a given hostname is used as it is; otherwise
      the `ip` of the `NS` record found for `tld`. A missing record raises
      `missing`; a raising scan, or a record without an `ip`, raises too. */
  function Pick(t: Table, given: Option<string>, tld: string, missing: StartError): (r: Result<string, StartError>)
    requires t.Valid()
    ensures given.Some? ==> r == Ok(given.value)
    ensures given.None? && ScanFrom(t, tld, 0).Absent? ==> r == Err(missing)
    ensures given.None? && ScanFrom(t, tld, 0).Found? ==>
      r == if ScanFrom(t, tld, 0).rec.ip.Some? then Ok(ScanFrom(t, tld, 0).rec.ip.value) else Err(LookupRaised)
    ensures given.None? && ScanFrom(t, tld, 0).Failed? ==> r == Err(LookupRaised)
  {
    match given
    case Some(h) => Ok(h)
    case None =>
      match ScanFrom(t, tld, 0)
      case Found(rec) => if rec.ip.Some? then Ok(rec.ip.value) else Err(LookupRaised)
      case Absent => Err(missing)
      case Failed => Err(LookupRaised)
  }

  /** `connectTLD(COM_hn, EDU_hn)` up to the two connections: `com` is
      settled first, so an error there stops the `edu` lookup. */
  function Discover(t: Table, comHost: Option<string>, eduHost: Option<string>): (r: Result<Upstreams, StartError>)
    requires t.Valid()
    ensures r.Ok? <==> Pick(t, comHost, "com", ComRecordNotFound).Ok? && Pick(t, eduHost, "edu", EduRecordNotFound).Ok?
    ensures Pick(t, comHost, "com", ComRecordNotFound).Err? ==> r == Err(Pick(t, comHost, "com", ComRecordNotFound).error)
    ensures Pick(t, comHost, "com", ComRecordNotFound).Ok? && Pick(t, eduHost, "edu", EduRecordNotFound).Err? ==>
      r == Err(Pick(t, eduHost, "edu", EduRecordNotFound).error)
    ensures r.Ok? ==>
      r.value == Upstreams(Pick(t, comHost, "com", ComRecordNotFound).value, Pick(t, eduHost, "edu", EduRecordNotFound).value)
  {
    var com := Pick(t, comHost, "com", ComRecordNotFound);
    if com.Err? then Err(com.error)
    else
      var edu := Pick(t, eduHost, "edu", EduRecordNotFound);
      if edu.Err? then Err(edu.error)
      else Ok(Upstreams(com.value, edu.value))
  }

  /** Given hostnames are used unchanged, whatever the table holds. */
  lemma GivenHostsUnchanged(t: Table, com: string, edu: string)
    requires t.Valid()
    ensures Discover(t, Some(com), Some(edu)) == Ok(Upstreams(com, edu))
  {
  }

  /** Without a given hostname, the `com` server is the `ip` of the first
      `NS` entry, in table order, whose label is `com` up to case, provided
      every entry before it is passed over. */
  lemma DiscoverUsesFirstNsRecord(t: Table, eduHost: Option<string>, j: nat)
    requires t.Valid() && j < |t.keys|
    requires SkippedBetween(t, "com", 0, j)
    requires ProbeRecord(t.entries[t.keys[j]], "com") == Match
    requires Discover(t, None, eduHost).Ok?
    ensures t.entries[t.keys[j]].ip.Some?
    ensures Discover(t, None, eduHost).value.com == t.entries[t.keys[j]].ip.value
  {
    ScanStopsAtFirst(t, "com", 0, j);
  }

  /** A table with no `com` server, and no hostname given for it, stops the
      start-up with the `com` error even when the `edu` lookup would fail
      too. */
  lemma MissingComReportedFirst(t: Table, eduHost: Option<string>)
    requires t.Valid()
    requires SkippedBetween(t, "com", 0, |t.keys|)
    ensures Discover(t, None, eduHost) == Err(ComRecordNotFound)
  {
    ScanAbsent(t, "com", 0);
  }

  // ---------------------------------------------------------------------
  // Routing one query

  datatype Upstream = Com | Edu

  /** How `run` handles a message. */
  datatype Route = End | Local(rec: Record) | Forward(up: Upstream) | Unknown

  /** `hnstring[len(hnstring)-3:].lower()`. */
  function Suffix(msg: string): string
  {
    Lower(SliceFrom(msg, |msg| - 3))
  }

  function RouteFor(t: Table, msg: string): Route
  {
    if msg == EOF_SIGNAL then End
    else if msg in t.entries then Local(t.entries[msg])
    else if Suffix(msg) == "edu" then Forward(Edu)
    else if Suffix(msg) == "com" then Forward(Com)
    else Unknown
  }

  /** The name ends with `x` (three characters) up to ASCII case; a name
      shorter than three characters ends with nothing of length three. */
  predicate EndsWithFolded(msg: string, x: string)
  {
    |msg| >= 3 && Lower(msg[|msg| - 3..]) == x
  }

  /** The slice test is the same as the suffix test, also for names shorter
      than three characters, where the negative start clamps. */
  lemma SuffixIsEnding(msg: string, x: string)
    requires |x| == 3
    ensures Suffix(msg) == x <==> EndsWithFolded(msg, x)
  {
    if |msg| >= 3 {
      assert SliceFrom(msg, |msg| - 3) == msg[|msg| - 3..];
    } else {
      assert |Suffix(msg)| < 3;
    }
  }

  /** The order of the tests in `run`: the termination message, then a key
      of the table (even one ending in `edu` or `com`), then `edu`, then
      `com`, then not found. */
  lemma RouteOrder(t: Table, msg: string)
    ensures RouteFor(t, msg) == End <==> msg == EOF_SIGNAL
    ensures RouteFor(t, msg).Local? <==> msg != EOF_SIGNAL && msg in t.entries
    ensures RouteFor(t, msg) == Forward(Edu) <==>
      msg != EOF_SIGNAL && msg !in t.entries && EndsWithFolded(msg, "edu")
    ensures RouteFor(t, msg) == Forward(Com) <==>
      msg != EOF_SIGNAL && msg !in t.entries && !EndsWithFolded(msg, "edu") && EndsWithFolded(msg, "com")
    ensures RouteFor(t, msg) == Unknown <==>
      msg != EOF_SIGNAL && msg !in t.entries && !EndsWithFolded(msg, "edu") && !EndsWithFolded(msg, "com")
  {
    SuffixIsEnding(msg, "edu");
    SuffixIsEnding(msg, "com");
  }

  /** The suffix test ignores label boundaries and case: `xedu` and
      `WWW.RUTGERS.EDU` both go to the `edu` server when not local. */
  lemma SuffixIgnoresDots(t: Table)
    requires "xedu" !in t.entries && "WWW.RUTGERS.EDU" !in t.entries
    ensures RouteFor(t, "xedu") == Forward(Edu)
    ensures RouteFor(t, "WWW.RUTGERS.EDU") == Forward(Edu)
  {
    assert "xedu"[1..] == "edu";
    assert Lower("EDU") == "edu" by {
      assert LowerChar('E') == 'e' && LowerChar('D') == 'd' && LowerChar('U') == 'u';
    }
    assert "WWW.RUTGERS.EDU"[12..] == "EDU";
    RouteOrder(t, "xedu");
    RouteOrder(t, "WWW.RUTGERS.EDU");
  }

  // ---------------------------------------------------------------------
  // The serving step and loop

  /** The server's table and its three connections: the accepted client and
      the two top-level servers. */
  datatype RootState = RootState(table: Table, client: Conn, com: Conn, edu: Conn)

  function Link(s: RootState, u: Upstream): Conn
  {
    if u == Com then s.com else s.edu
  }

  function WithLink(s: RootState, u: Upstream, c: Conn): (r: RootState)
    ensures Link(r, u) == c && r.table == s.table && r.client == s.client
    ensures u == Com ==> r.edu == s.edu
    ensures u == Edu ==> r.com == s.com
  {
    if u == Com then s.(com := c) else s.(edu := c)
  }

  /** `send_EDU(msg)` or `send_COM(msg)`, then the matching `recv`, then the
      reply relayed to the client, after the client's message was read. A
      closed upstream, or one with nothing to read, raises. */
  function RelayStep(s: RootState, u: Upstream, msg: string): (r: (Step, RootState))
    requires s.client.open
    ensures r.1.table == s.table && r.0 != Stop
    ensures r.0 == Raised ==> r.1.client == s.client
    ensures r.0 == Continue ==> Link(s, u).inbox != [] && r.1.client == s.client.Send(Link(s, u).inbox[0])
  {
    var up := Link(s, u);
    if !up.open then (Raised, s)
    else
      var asked := up.Send(msg);
      if !asked.CanRecv() then (Raised, WithLink(s, u, asked))
      else (Continue, WithLink(s.(client := s.client.Send(asked.inbox[0])), u, asked.Recv()))
  }

  /** What `run` does with the message `msg` it has just read from the
      client, once the message is routed. */
  function Handle(s: RootState, msg: string, route: Route): (r: (Step, RootState))
    requires s.client.open
    ensures r.1.table == s.table
  {
    match route
    case End => (Stop, s.(client := s.client.Close()))
    case Local(rec) =>
      (match Serialise(rec)
       case Some(text) => (Continue, s.(client := s.client.Send(text)))
       case None => (Raised, s))
    case Forward(u) => RelayStep(s, u, msg)
    case Unknown => (Continue, s.(client := s.client.Send(NotFoundReply(msg))))
  }

  /** One call of `run`. */
  function RootStep(s: RootState): (r: (Step, RootState))
    ensures r.1.table == s.table
  {
    if !s.client.CanRecv() then (Raised, s)
    else
      var msg := s.client.inbox[0];
      Handle(s.(client := s.client.Recv()), msg, RouteFor(s.table, msg))
  }

  /** Whatever the route, handling a message reads nothing more; only the
      termination message gives `False`, which closes the client
      connection; `True` follows exactly one reply and anything else none. */
  lemma HandleEffect(s: RootState, msg: string, route: Route)
    requires s.client.open
    ensures var (step, next) := Handle(s, msg, route);
      next.client.inbox == s.client.inbox && next.client.received == s.client.received
      && (step == Stop <==> route == End)
      && (step == Stop ==> !next.client.open)
      && (step == Continue ==> |next.client.sent| == |s.client.sent| + 1)
      && (step != Continue ==> next.client.sent == s.client.sent)
  {
  }

  /** What one step does to the client connection: the messages read and
      the messages still to read together stay the same; `True` and `False`
      each follow exactly one read, and a raise at most one; only `True`
      follows a reply, exactly one. */
  ghost predicate Accounted(c: Conn, step: Step, out: Conn)
  {
    out.received + out.inbox == c.received + c.inbox
    && (step != Raised ==>
          c.CanRecv() && out.inbox == c.inbox[1..] && out.received == c.received + [c.inbox[0]])
    && (step == Stop <==> c.CanRecv() && c.inbox[0] == EOF_SIGNAL)
    && (step == Stop ==> !out.open)
    && (step == Raised ==> |c.received| <= |out.received| <= |c.received| + 1)
    && (step == Continue ==> |out.sent| == |c.sent| + 1)
    && (step != Continue ==> out.sent == c.sent)
  }

  /** Reading one message, then handling it as `HandleEffect` says, is
      accounted for. */
  lemma AccountedAfterRead(c: Conn, step: Step, out: Conn)
    requires c.CanRecv()
    requires out.inbox == c.inbox[1..] && out.received == c.received + [c.inbox[0]]
    requires step == Stop <==> c.inbox[0] == EOF_SIGNAL
    requires step == Stop ==> !out.open
    requires step == Continue ==> |out.sent| == |c.sent| + 1
    requires step != Continue ==> out.sent == c.sent
    ensures Accounted(c, step, out)
  {
    assert c.inbox == [c.inbox[0]] + out.inbox;
    assert out.received + out.inbox == c.received + ([c.inbox[0]] + out.inbox);
  }

  /** Every step of the root server is accounted for. */
  lemma StepAccounting(s: RootState)
    ensures Accounted(s.client, RootStep(s).0, RootStep(s).1.client)
  {
    if s.client.CanRecv() {
      var msg := s.client.inbox[0];
      var c := s.client.Recv();
      var route := RouteFor(s.table, msg);
      assert RootStep(s) == Handle(s.(client := c), msg, route);
      HandleEffect(s.(client := c), msg, route);
      assert route == End <==> msg == EOF_SIGNAL;
      AccountedAfterRead(s.client, RootStep(s).0, RootStep(s).1.client);
    } else {
      assert RootStep(s) == (Raised, s);
    }
  }

  /** The loop `while self.run(): pass`; it ends only when `run` returns
      `False` or raises. */
  function RootServe(s: RootState): (r: (Step, RootState))
    ensures r.0 != Continue
    ensures r.1.table == s.table
    decreases |s.client.inbox|
  {
    var (step, next) := RootStep(s);
    StepAccounting(s);
    if step == Continue then RootServe(next) else (step, next)
  }

  // ---------------------------------------------------------------------
  // Properties of one step

  /** The termination message closes the client connection, sends nothing
      anywhere and ends the loop. */
  lemma EofStops(s: RootState)
    requires s.client.CanRecv() && s.client.inbox[0] == EOF_SIGNAL
    ensures var (step, next) := RootStep(s);
      step == Stop && !next.client.open && next.client.sent == s.client.sent
      && next.com == s.com && next.edu == s.edu
  {
  }

  /** A key of the table is answered from the table, even when it ends in
      `edu` or `com`; no top-level server is contacted. */
  lemma LocalHitAnswered(s: RootState)
    requires s.client.CanRecv()
    requires s.client.inbox[0] != EOF_SIGNAL && s.client.inbox[0] in s.table.entries
    requires Serialise(s.table.entries[s.client.inbox[0]]).Some?
    ensures var (step, next) := RootStep(s);
      step == Continue
      && next.client.sent == s.client.sent + [Serialise(s.table.entries[s.client.inbox[0]]).value]
      && next.com == s.com && next.edu == s.edu
  {
  }

  /** A key whose stored record lacks a field is read, but formatting its
      record raises: nothing is sent to the client and no top-level server
      is contacted. */
  lemma LocalUnformattableRaises(s: RootState)
    requires s.client.CanRecv()
    requires s.client.inbox[0] != EOF_SIGNAL && s.client.inbox[0] in s.table.entries
    requires Serialise(s.table.entries[s.client.inbox[0]]).None?
    ensures var (step, next) := RootStep(s);
      step == Raised
      && next.client.received == s.client.received + [s.client.inbox[0]]
      && next.client.sent == s.client.sent
      && next.com == s.com && next.edu == s.edu
  {
  }

  /** A forwarded name is sent once to its top-level server, one reply is
      read back from it and relayed to the client unchanged; the other
      top-level connection is untouched. */
  lemma ForwardRelays(s: RootState, u: Upstream)
    requires s.client.CanRecv() && RouteFor(s.table, s.client.inbox[0]) == Forward(u)
    requires Link(s, u).open && Link(s, u).inbox != []
    ensures var (step, next) := RootStep(s);
      var reply := Link(s, u).inbox[0];
      step == Continue
      && Link(next, u).sent == Link(s, u).sent + [s.client.inbox[0]]
      && Link(next, u).received == Link(s, u).received + [reply]
      && next.client.sent == s.client.sent + [reply]
      && (u == Com ==> next.edu == s.edu)
      && (u == Edu ==> next.com == s.com)
  {
  }

  /** A name that is not a key and ends in neither `edu` nor `com` gets the
      not-found reply; no top-level server is contacted. */
  lemma UnknownNotFound(s: RootState)
    requires s.client.CanRecv()
    requires var msg := s.client.inbox[0];
      msg != EOF_SIGNAL && msg !in s.table.entries
      && !EndsWithFolded(msg, "edu") && !EndsWithFolded(msg, "com")
    ensures var (step, next) := RootStep(s);
      step == Continue
      && next.client.sent == s.client.sent + [NotFoundReply(s.client.inbox[0])]
      && next.com == s.com && next.edu == s.edu
  {
    RouteOrder(s.table, s.client.inbox[0]);
  }

  // ---------------------------------------------------------------------
  // Properties of the serving loop

  /** Every message read gets exactly one reply, except the last one read,
      which may get none (the termination message, or a failure). */
  lemma {:induction false} OneReplyPerMessage(s: RootState)
    ensures var out := RootServe(s).1.client;
      |out.sent| - |s.client.sent| <= |out.received| - |s.client.received| <= |out.sent| - |s.client.sent| + 1
    decreases |s.client.inbox|
  {
    var (step, next) := RootStep(s);
    StepAccounting(s);
    if step == Continue {
      assert RootServe(s) == RootServe(next);
      OneReplyPerMessage(next);
    }
  }

  /** What the loop has done to the client connection when it stops at
      the first termination message: read exactly the messages up to it,
      answered each message before it once, and closed the connection. */
  ghost predicate StoppedAtEof(c: Conn, out: Conn)
  {
    var n := |BeforeEof(c.inbox)|;
    n < |c.inbox| && !out.open
    && out.received == c.received + UpToEof(c.inbox)
    && |out.sent| == |c.sent| + n
  }

  /** A query read and answered, followed by a run that stops at the
      termination message, is a run that stops at the termination
      message. */
  lemma StoppedAtEofStep(c: Conn, next: Conn, out: Conn)
    requires c.inbox != [] && c.inbox[0] != EOF_SIGNAL
    requires next.inbox == c.inbox[1..] && next.received == c.received + [c.inbox[0]]
    requires |next.sent| == |c.sent| + 1
    requires StoppedAtEof(next, out)
    ensures StoppedAtEof(c, out)
  {
    var msgs := c.inbox;
    EofCons(msgs);
    var before, upto := BeforeEof(msgs[1..]), UpToEof(msgs[1..]);
    assert |BeforeEof(msgs)| == |before| + 1;
    assert UpToEof(msgs) == [msgs[0]] + upto;
    assert out.received == (c.received + [msgs[0]]) + upto;
  }

  /** When the loop ends by `run` returning `False`, it has read exactly the
      messages up to the first termination message, answered each message
      before it once, and closed the client connection. */
  lemma {:induction false} StopAfterEof(s: RootState)
    requires RootServe(s).0 == Stop
    ensures StoppedAtEof(s.client, RootServe(s).1.client)
    decreases |s.client.inbox|
  {
    var (step, next) := RootStep(s);
    StepAccounting(s);
    if step == Continue {
      assert RootServe(s) == RootServe(next);
      StopAfterEof(next);
      StoppedAtEofStep(s.client, next.client, RootServe(next).1.client);
    }
  }

  // ---------------------------------------------------------------------
  // The server object

  /** A root server process: its table, the accepted client connection and
      its two connections to the top-level servers. */
  class RootResolver {
    var table: Table
    var client: Conn
    var com: Conn
    var edu: Conn

    predicate Valid()
      reads this
    {
      table.Valid()
    }

    function Snapshot(): RootState
      reads this
    {
      RootState(table, client, com, edu)
    }

    /** `RServer()`: an empty table and no connection yet. */
    constructor ()
      ensures Valid() && table == Empty
      ensures !client.open && !com.open && !edu.open
    {
      table := Empty;
      client := Conn([], [], [], false);
      com := Conn([], [], [], false);
      edu := Conn([], [], [], false);
    }

    /** `RS_table.update(read_table_from_file(...))` with the file's lines. */
    method Load(lines: seq<string>) returns (res: Result<Table, ParseError>)
      requires Valid()
      modifies this
      ensures Valid() && client == old(client) && com == old(com) && edu == old(edu)
      ensures res == Build(Empty, lines)
      ensures res.Ok? ==> res.value.Valid()
      ensures res.Ok? ==> table == Update(old(table), res.value)
      ensures res.Err? ==> table == old(table)
    {
      res := ListToTable(lines);
      if res.Ok? {
        BuildKeepsOrder(Empty, lines);
        table := Update(table, res.value);
      }
    }

    /** `find_TLD_NS_entry(tld)`: the entries in table order, returning the
        first that matches. */
    method FindTldNsEntry(tld: string) returns (res: Lookup)
      requires Valid()
      ensures res == ScanFrom(table, tld, 0)
    {
      var i := 0;
      while i < |table.keys|
        invariant i <= |table.keys|
        invariant ScanFrom(table, tld, 0) == ScanFrom(table, tld, i)
      {
        var rec := table.entries[table.keys[i]];
        if rec.flag.None? {
          return Failed;
        }
        if rec.flag.value == NS {
          var last := GetTLD(rec);
          if last.None? {
            return Failed;
          }
          if Lower(tld) == Lower(last.value) {
            return Found(rec);
          }
        }
        i := i + 1;
      }
      return Absent;
    }

    /** `connectTLD(COM_hn, EDU_hn)`: find both hostnames, then hold the
        connections `comLink` and `eduLink` that connecting to them gives. */
    method ConnectTld(comHost: Option<string>, eduHost: Option<string>, comLink: Conn, eduLink: Conn)
      returns (res: Result<Upstreams, StartError>)
      requires Valid()
      modifies this
      ensures Valid() && table == old(table) && client == old(client)
      ensures res == Discover(table, comHost, eduHost)
      ensures res.Ok? ==> com == comLink && edu == eduLink
      ensures res.Err? ==> com == old(com) && edu == old(edu)
    {
      var comName: string;
      if comHost.Some? {
        comName := comHost.value;
      } else {
        var found := FindTldNsEntry("com");
        if found.Absent? {
          return Err(ComRecordNotFound);
        }
        if found.Failed? || found.rec.ip.None? {
          return Err(LookupRaised);
        }
        comName := found.rec.ip.value;
      }
      var eduName: string;
      if eduHost.Some? {
        eduName := eduHost.value;
      } else {
        var found := FindTldNsEntry("edu");
        if found.Absent? {
          return Err(EduRecordNotFound);
        }
        if found.Failed? || found.rec.ip.None? {
          return Err(LookupRaised);
        }
        eduName := found.rec.ip.value;
      }
      com := comLink;
      edu := eduLink;
      return Ok(Upstreams(comName, eduName));
    }

    /** `run`: read one message from the client and act on it. */
    method Run() returns (step: Step)
      requires Valid()
      modifies this
      ensures Valid()
      ensures (step, Snapshot()) == RootStep(old(Snapshot()))
    {
      if !client.CanRecv() {
        return Raised;
      }
      var msg := client.inbox[0];
      client := client.Recv();
      if msg == EOF_SIGNAL {
        client := client.Close();
        return Stop;
      }
      if msg in table.entries {
        var text := Serialise(table.entries[msg]);
        if text.None? {
          return Raised;
        }
        client := client.Send(text.value);
        return Continue;
      }
      var suffix := Suffix(msg);
      if suffix == "edu" {
        step := Relay(Edu, msg);
      } else if suffix == "com" {
        step := Relay(Com, msg);
      } else {
        client := client.Send(NotFoundReply(msg));
        step := Continue;
      }
    }

    /** Forward `msg` to one top-level server and relay its reply. */
    method Relay(u: Upstream, msg: string) returns (step: Step)
      requires Valid() && client.open
      modifies this
      ensures Valid()
      ensures (step, Snapshot()) == RelayStep(old(Snapshot()), u, msg)
    {
      var up := if u == Com then com else edu;
      if !up.open {
        return Raised;
      }
      up := up.Send(msg);
      if u == Com { com := up; } else { edu := up; }
      if !up.CanRecv() {
        return Raised;
      }
      var reply := up.inbox[0];
      up := up.Recv();
      if u == Com { com := up; } else { edu := up; }
      client := client.Send(reply);
      return Continue;
    }

    /** `start`: take the accepted client connection, then
        `while self.run(): pass`. */
    method Start(accepted: Conn) returns (last: Step)
      requires Valid()
      modifies this
      ensures Valid()
      ensures (last, Snapshot()) == RootServe(RootState(old(table), accepted, old(com), old(edu)))
    {
      client := accepted;
      ghost var start := Snapshot();
      last := Continue;
      while last == Continue
        invariant Valid() && table == old(table)
        invariant RootServe(start) == (if last == Continue then RootServe(Snapshot()) else (last, Snapshot()))
        decreases |client.inbox| + (if last == Continue then 1 else 0)
      {
        last := Run();
      }
    }
  }
}

=== FILE: search.dfy ===
/** Positions in a sequence: the first and the last element that satisfies a
    test. The table's lemmas use them to name "the first line that fails to
    parse" and "the last line that defines a hostname". */
module Search {

  /** The first position whose element satisfies `p`, or -1. */
  function FirstWhere<T>(p: T -> bool, xs: seq<T>): (r: int)
    ensures -1 <= r < |xs|
    ensures r >= 0 ==> p(xs[r])
    decreases |xs|
  {
    if xs == [] then -1
    else if p(xs[0]) then 0
    else
      var later := FirstWhere(p, xs[1..]);
      if later < 0 then -1 else later + 1
  }

  /** The last position whose element satisfies `p`, or -1. */
  function LastWhere<T>(p: T -> bool, xs: seq<T>): (r: int)
    ensures -1 <= r < |xs|
    ensures r >= 0 ==> p(xs[r])
    decreases |xs|
  {
    if xs == [] then -1
    else
      var later := LastWhere(p, xs[1..]);
      if later >= 0 then later + 1
      else if p(xs[0]) then 0
      else -1
  }

  /** `FirstWhere` finds an element that satisfies `p` with none before it,
      and returns -1 exactly when no element satisfies `p`. */
  lemma {:induction false} FirstWhereIsFirst<T>(p: T -> bool, xs: seq<T>)
    ensures var r := FirstWhere(p, xs);
      (r >= 0 ==> p(xs[r]) && forall j :: 0 <= j < r ==> !p(xs[j]))
      && (r < 0 <==> forall j :: 0 <= j < |xs| ==> !p(xs[j]))
    decreases |xs|
  {
    if xs != [] && !p(xs[0]) {
      var rest := xs[1..];
      FirstWhereIsFirst(p, rest);
      forall j | 0 < j < |xs| ensures xs[j] == rest[j - 1] { }
    }
  }

  /** `LastWhere` finds an element that satisfies `p` with none after it,
      and returns -1 exactly when no element satisfies `p`. */
  lemma {:induction false} LastWhereIsLast<T>(p: T -> bool, xs: seq<T>)
    ensures var r := LastWhere(p, xs);
      (r >= 0 ==> p(xs[r]) && forall j :: r < j < |xs| ==> !p(xs[j]))
      && (r < 0 <==> forall j :: 0 <= j < |xs| ==> !p(xs[j]))
    decreases |xs|
  {
    if xs != [] {
      var rest := xs[1..];
      LastWhereIsLast(p, rest);
      forall j | 0 < j < |xs| ensures xs[j] == rest[j - 1] { }
    }
  }

  /** Whatever position satisfies `p` with none before it is the one
      `FirstWhere` returns. */
  lemma FirstWhereUnique<T>(p: T -> bool, xs: seq<T>, i: nat)
    requires i < |xs| && p(xs[i])
    requires forall j :: 0 <= j < i ==> !p(xs[j])
    ensures FirstWhere(p, xs) == i
  {
    FirstWhereIsFirst(p, xs);
  }

  /** Whatever position satisfies `p` with none after it is the one
      `LastWhere` returns. */
  lemma LastWhereUnique<T>(p: T -> bool, xs: seq<T>, i: nat)
    requires i < |xs| && p(xs[i])
    requires forall j :: i < j < |xs| ==> !p(xs[j])
    ensures LastWhere(p, xs) == i
  {
    LastWhereIsLast(p, xs);
  }
}

=== FILE: session.dfy ===
/** The wire conventions every connection shares. A connection is seen from
    one end as a transcript: the messages the peer will still send, the
    messages read so far, the messages sent so far, and whether this end
    has closed it. Each message is assumed to arrive in one read. */
module Session {

  /** Sent by the initiating side to say that no request follows. */
  const EOF_SIGNAL: string := "\r\n\r\n"

  /** The reply for a name no table holds: `"{} - Error: HOST NOT FOUND"`. */
  function NotFoundReply(name: string): string
  {
    name + " - Error: HOST NOT FOUND"
  }

  datatype Conn = Conn(inbox: seq<string>, received: seq<string>, sent: seq<string>, open: bool)
  {
    /** A read succeeds only on an open end whose peer has another message;
        any other read raises. */
    predicate CanRecv()
    {
      open && inbox != []
    }

    /** `recv`: take the peer's next message. */
    function Recv(): (c: Conn)
      requires CanRecv()
      ensures c.received == received + [inbox[0]] && c.inbox == inbox[1..]
      ensures c.sent == sent && c.open
    {
      Conn(inbox[1..], received + [inbox[0]], sent, open)
    }

    /** `send` on an open end. */
    function Send(m: string): (c: Conn)
      requires open
      ensures c.sent == sent + [m]
      ensures c.inbox == inbox && c.received == received && c.open
    {
      Conn(inbox, received, sent + [m], open)
    }

    /** `close`: nothing more can be read or sent on this end. */
    function Close(): (c: Conn)
      ensures !c.open && !c.CanRecv()
      ensures c.inbox == inbox && c.received == received && c.sent == sent
    {
      Conn(inbox, received, sent, false)
    }
  }

  /** The messages read before the first termination message. */
  function BeforeEof(msgs: seq<string>): (r: seq<string>)
    ensures |r| <= |msgs|
  {
    if msgs == [] || msgs[0] == EOF_SIGNAL then [] else [msgs[0]] + BeforeEof(msgs[1..])
  }

  /** `BeforeEof` is the longest prefix free of the termination message:
      it holds none, and it is either all of `msgs` or followed by one. */
  lemma {:induction false} BeforeEofIsPrefix(msgs: seq<string>)
    ensures var r := BeforeEof(msgs);
      r == msgs[..|r|] && EOF_SIGNAL !in r
      && (|r| < |msgs| ==> msgs[|r|] == EOF_SIGNAL)
    decreases |msgs|
  {
    if msgs != [] && msgs[0] != EOF_SIGNAL {
      BeforeEofIsPrefix(msgs[1..]);
    }
  }

  /** The messages a reader takes when it stops right after the first
      termination message: those up to and including it, or all of them when
      none is a termination message. */
  function UpToEof(msgs: seq<string>): (r: seq<string>)
  {
    if msgs == [] then []
    else if msgs[0] == EOF_SIGNAL then [msgs[0]]
    else [msgs[0]] + UpToEof(msgs[1..])
  }

  /** `UpToEof` is `BeforeEof` followed by the termination message when
      there is one, and all of `msgs` otherwise. */
  lemma {:induction false} UpToEofIsPrefix(msgs: seq<string>)
    ensures |BeforeEof(msgs)| < |msgs| ==> UpToEof(msgs) == msgs[..|BeforeEof(msgs)| + 1]
    ensures |BeforeEof(msgs)| == |msgs| ==> UpToEof(msgs) == msgs
    decreases |msgs|
  {
    if msgs != [] && msgs[0] != EOF_SIGNAL {
      UpToEofIsPrefix(msgs[1..]);
      var n := |BeforeEof(msgs[1..])|;
      if n < |msgs| - 1 {
        assert msgs[..n + 2] == [msgs[0]] + msgs[1..][..n + 1];
      } else {
        assert msgs == [msgs[0]] + msgs[1..];
      }
    }
  }

  /** Reading a message other than the termination message, then the rest. */
  lemma EofCons(msgs: seq<string>)
    requires msgs != [] && msgs[0] != EOF_SIGNAL
    ensures BeforeEof(msgs) == [msgs[0]] + BeforeEof(msgs[1..])
    ensures UpToEof(msgs) == [msgs[0]] + UpToEof(msgs[1..])
  {
  }

  /** What one call of a server's `run` does: return `True`, return `False`,
      or raise (a failed read, or an attribute the record lacks). */
  datatype Step = Continue | Stop | Raised
}

=== FILE: table.dfy ===
/** The record table every role builds at start-up: a Python dict from
    hostname to record. Dict iteration order is insertion order and an
    overwritten key keeps its place, so the table is an ordered key list
    beside the map. */
module RecordTable {
  import opened Wrappers
  import opened Text
  import opened DnsRecord
  import opened Search

  datatype Table = Table(keys: seq<string>, entries: map<string, Record>)
  {
    /** Keys are listed once each, and exactly the keys of the map. */
    predicate Valid()
    {
      (forall i, j :: 0 <= i < j < |keys| ==> keys[i] != keys[j])
      && (forall k :: k in entries ==> k in keys)
      && (forall i :: 0 <= i < |keys| ==> keys[i] in entries)
    }
  }

  const Empty: Table := Table([], map[])

  /** `d[k] = v`: a new key is appended, an existing key keeps its position
      and takes the new value. */
  function Insert(t: Table, k: string, v: Record): Table
  {
    if k in t.entries then Table(t.keys, t.entries[k := v])
    else Table(t.keys + [k], t.entries[k := v])
  }

  /** Assigning a key keeps the key list and the map in step. */
  lemma InsertKeepsValid(t: Table, k: string, v: Record)
    requires t.Valid()
    ensures Insert(t, k, v).Valid()
    ensures t.keys <= Insert(t, k, v).keys
  {
    if k !in t.entries {
      var u := Insert(t, k, v);
      assert forall i :: 0 <= i < |t.keys| ==> u.keys[i] == t.keys[i];
      assert u.keys[|t.keys|] == k;
    }
  }

  /** A line `list_to_table` stores under hostname `k`. */
  predicate Defines(line: string, k: string)
  {
    |Strip(line)| > 0 && Parse(line).Ok? && Parse(line).value.hostname == Some(k)
  }

  /** A line `list_to_table` fails on. */
  predicate Rejects(line: string)
  {
    |Strip(line)| > 0 && Parse(line).Err?
  }

  /** One iteration of the loop of `list_to_table`: a blank line is
      skipped, any other line is parsed and stored under its hostname. */
  function Store(t: Table, line: string): Result<Table, ParseError>
  {
    if |Strip(line)| == 0 then Ok(t)
    else
      match Parse(line)
      case Err(e) => Err(e)
      case Ok(rec) =>
        // a non-blank line always yields a hostname (ParseNamesHost), so the
        // second case never arises
        match rec.hostname
        case Some(h) => Ok(Insert(t, h, rec))
        case None => Ok(t)
  }

  /** What the loop of `list_to_table` makes of `lines` when it starts from
      the table `t`; the first parse error ends it. */
  function Build(t: Table, lines: seq<string>): Result<Table, ParseError>
    decreases |lines|
  {
    if lines == [] then Ok(t)
    else
      match Store(t, lines[0])
      case Err(e) => Err(e)
      case Ok(t') => Build(t', lines[1..])
  }

  /** `list_to_table(lines)` */
  method ListToTable(lines: seq<string>) returns (res: Result<Table, ParseError>)
    ensures res == Build(Empty, lines)
  {
    var table := Empty;
    for n := 0 to |lines|
      invariant Build(table, lines[n..]) == Build(Empty, lines)
    {
      BuildFrom(table, lines, n);
      if |Strip(lines[n])| > 0 {
        var parsed := Parse(lines[n]);
        if parsed.Err? {
          return Err(parsed.error);
        }
        ParseNamesHost(lines[n]);
        table := Insert(table, parsed.value.hostname.value, parsed.value);
      }
    }
    res := Ok(table);
  }

  /** `t.update(u)`: the entries of `u`, in `u`'s order, written into `t`. */
  function Update(t: Table, u: Table): (r: Table)
    requires t.Valid() && u.Valid()
    ensures r.Valid()
    ensures t.keys <= r.keys
    ensures forall k :: k in r.entries <==> k in t.entries || k in u.entries
    ensures forall k :: k in u.entries ==> r.entries[k] == u.entries[k]
    ensures forall k :: k in t.entries && k !in u.entries ==> r.entries[k] == t.entries[k]
  {
    InsertAllEffect(t, u.entries, u.keys);
    InsertAll(t, u.entries, u.keys)
  }

  /** The entries of `m` under the keys `ks`, assigned one after another. */
  function InsertAll(t: Table, m: map<string, Record>, ks: seq<string>): Table
    requires forall i :: 0 <= i < |ks| ==> ks[i] in m
    decreases |ks|
  {
    if ks == [] then t else InsertAll(Insert(t, ks[0], m[ks[0]]), m, ks[1..])
  }

  /** Assigning the keys `ks` keeps the table valid and its old keys in
      place; afterwards the keys of `ks` hold their values from `m` and every
      other key keeps its old value. */
  lemma {:induction false} InsertAllEffect(t: Table, m: map<string, Record>, ks: seq<string>)
    requires t.Valid()
    requires forall i :: 0 <= i < |ks| ==> ks[i] in m
    ensures var r := InsertAll(t, m, ks);
      && r.Valid()
      && t.keys <= r.keys
      && (forall k :: k in r.entries <==> k in t.entries || k in ks)
      && (forall k :: k in ks ==> r.entries[k] == m[k])
      && (forall k :: k in t.entries && k !in ks ==> r.entries[k] == t.entries[k])
    decreases |ks|
  {
    if ks != [] {
      var t' := Insert(t, ks[0], m[ks[0]]);
      InsertKeepsValid(t, ks[0], m[ks[0]]);
      InsertAllEffect(t', m, ks[1..]);
      assert forall k :: k in ks <==> k == ks[0] || k in ks[1..];
    }
  }

  // ---------------------------------------------------------------------
  // What the built table holds

  /** One line's effect: it fails exactly when it is rejected; otherwise it
      stores the parsed record under the hostname it defines and leaves
      every other entry alone. */
  lemma StoreEffect(t: Table, line: string, k: string)
    ensures Store(t, line).Err? <==> Rejects(line)
    ensures Store(t, line).Err? ==> Store(t, line).error == Parse(line).error
    ensures Store(t, line).Ok? ==>
      var u := Store(t, line).value;
      (k in u.entries <==> k in t.entries || Defines(line, k))
      && (Defines(line, k) ==> u.entries[k] == Parse(line).value)
      && (!Defines(line, k) && k in t.entries ==> u.entries[k] == t.entries[k])
  {
  }

  /** The record of the last line in `lines` that defines `k`, if any. */
  function LastDefinition(lines: seq<string>, k: string): Option<Record>
  {
    var i := LastWhere((line: string) => Defines(line, k), lines);
    if i >= 0 then Some(Parse(lines[i]).value) else None
  }

  /** `LastDefinition` is what its name says: it is set exactly when some
      line defines `k`, and then it is the record of the last such line. */
  lemma LastDefinitionIsLast(lines: seq<string>, k: string)
    ensures LastDefinition(lines, k).Some? <==> exists i :: 0 <= i < |lines| && Defines(lines[i], k)
    ensures forall i ::
      (0 <= i < |lines| && Defines(lines[i], k) && (forall j :: i < j < |lines| ==> !Defines(lines[j], k)))
      ==> LastDefinition(lines, k) == Some(Parse(lines[i]).value)
  {
    var p := (line: string) => Defines(line, k);
    LastWhereIsLast(p, lines);
    forall i | 0 <= i < |lines| && Defines(lines[i], k) && (forall j :: i < j < |lines| ==> !Defines(lines[j], k))
      ensures LastWhere(p, lines) == i
    {
      LastWhereUnique(p, lines, i);
    }
  }

  /** Lookup after building: a hostname is in the result exactly when it was
      already in the table or some line defines it; its record is the one
      from the last line that defines it (last write wins), and a hostname no
      line defines keeps its old record. */
  lemma {:induction false} BuildLookup(t: Table, lines: seq<string>, k: string)
    requires Build(t, lines).Ok?
    ensures var u := Build(t, lines).value;
      && (k in u.entries <==> k in t.entries || LastDefinition(lines, k).Some?)
      && (LastDefinition(lines, k).Some? ==> u.entries[k] == LastDefinition(lines, k).value)
      && (LastDefinition(lines, k).None? && k in t.entries ==> u.entries[k] == t.entries[k])
    decreases |lines|
  {
    if lines != [] {
      StoreEffect(t, lines[0], k);
      var t' := Store(t, lines[0]).value;
      assert Build(t, lines) == Build(t', lines[1..]);
      BuildLookup(t', lines[1..], k);
    }
  }

  /** The same, stated over line positions. */
  lemma LastLineWins(t: Table, lines: seq<string>, k: string, i: nat)
    requires Build(t, lines).Ok?
    requires i < |lines| && Defines(lines[i], k)
    requires forall j :: i < j < |lines| ==> !Defines(lines[j], k)
    ensures k in Build(t, lines).value.entries
    ensures Build(t, lines).value.entries[k] == Parse(lines[i]).value
  {
    BuildLookup(t, lines, k);
    LastDefinitionIsLast(lines, k);
  }

  /** Building fails exactly when some line is rejected, with the error of
      the first rejected line. */
  lemma {:induction false} BuildFirstError(t: Table, lines: seq<string>)
    ensures var i := FirstWhere(Rejects, lines);
      (Build(t, lines).Err? <==> i >= 0)
      && (i >= 0 ==> Build(t, lines) == Err(Parse(lines[i]).error))
    decreases |lines|
  {
    if lines != [] {
      StoreEffect(t, lines[0], "");
      if !Rejects(lines[0]) {
        var rest := lines[1..];
        var t' := Store(t, lines[0]).value;
        BuildFirstError(t', rest);
        assert Build(t, lines) == Build(t', rest);
        var i := FirstWhere(Rejects, rest);
        if i >= 0 {
          assert rest[i] == lines[i + 1];
        }
      }
    }
  }

  /** The same, stated over line positions: building fails exactly when
      some non-blank line fails to parse, and the error raised is the one of
      the first such line. */
  lemma BuildFails(t: Table, lines: seq<string>)
    ensures Build(t, lines).Err? <==> exists i :: 0 <= i < |lines| && Rejects(lines[i])
    ensures forall i ::
      (0 <= i < |lines| && Rejects(lines[i]) && (forall j :: 0 <= j < i ==> !Rejects(lines[j])))
      ==> Build(t, lines) == Err(Parse(lines[i]).error)
  {
    BuildFirstError(t, lines);
    FirstWhereIsFirst(Rejects, lines);
    forall i | 0 <= i < |lines| && Rejects(lines[i]) && (forall j :: 0 <= j < i ==> !Rejects(lines[j]))
      ensures FirstWhere(Rejects, lines) == i
    {
      FirstWhereUnique(Rejects, lines, i);
    }
  }

  /** A stored line keeps the table valid and its key list a prefix. */
  lemma StoreKeepsValid(t: Table, line: string)
    requires t.Valid() && Store(t, line).Ok?
    ensures Store(t, line).value.Valid()
    ensures t.keys <= Store(t, line).value.keys
  {
    if |Strip(line)| > 0 {
      var rec := Parse(line).value;
      ParseNamesHost(line);
      InsertKeepsValid(t, rec.hostname.value, rec);
    }
  }

  /** Building keeps the table valid, and never moves a key that is already
      present: the old key list is a prefix of the new one, so an
      overwritten hostname keeps its place in iteration order. */
  lemma {:induction false} BuildKeepsOrder(t: Table, lines: seq<string>)
    requires t.Valid() && Build(t, lines).Ok?
    ensures Build(t, lines).value.Valid()
    ensures t.keys <= Build(t, lines).value.keys
    decreases |lines|
  {
    if lines != [] {
      var t' := Store(t, lines[0]).value;
      StoreKeepsValid(t, lines[0]);
      BuildKeepsOrder(t', lines[1..]);
    }
  }

  // ---------------------------------------------------------------------
  // Iteration order of the built table

  /** The keys of `ks` that are not in `seen`, each once, in the order of
      their first occurrence. */
  function NewKeys(seen: set<string>, ks: seq<string>): seq<string>
    decreases |ks|
  {
    if ks == [] then []
    else if ks[0] in seen then NewKeys(seen, ks[1..])
    else [ks[0]] + NewKeys(seen + {ks[0]}, ks[1..])
  }

  /** The hostnames the lines of `lines` define, in line order, repeats
      included. */
  function DefinedHosts(lines: seq<string>): seq<string>
    decreases |lines|
  {
    if lines == [] then []
    else
      var rest := DefinedHosts(lines[1..]);
      var line := lines[0];
      if |Strip(line)| > 0 && Parse(line).Ok? && Parse(line).value.hostname.Some?
      then [Parse(line).value.hostname.value] + rest
      else rest
  }

  /** Assigning one key appends it when it is new and keeps the key list
      otherwise. */
  lemma InsertOrder(t: Table, k: string, v: Record)
    ensures Insert(t, k, v).keys == t.keys + NewKeys(t.entries.Keys, [k])
    ensures Insert(t, k, v).entries.Keys == t.entries.Keys + {k}
  {
    assert [k][1..] == [];
  }

  /** Taking the first key of `ks`, then the rest with it marked seen. */
  lemma {:induction false} NewKeysStep(seen: set<string>, ks: seq<string>)
    requires ks != []
    ensures NewKeys(seen, ks) == NewKeys(seen, [ks[0]]) + NewKeys(seen + {ks[0]}, ks[1..])
  {
    var k := ks[0];
    assert [k][1..] == [];
    if k in seen {
      assert seen + {k} == seen;
      assert NewKeys(seen, [k]) == [];
    } else {
      assert NewKeys(seen, [k]) == [k];
    }
  }

  /** Assigning the keys `ks` in turn appends those the table does not hold
      yet, in the order they are first assigned, behind the old keys. */
  lemma {:induction false} InsertAllOrder(t: Table, m: map<string, Record>, ks: seq<string>)
    requires forall i :: 0 <= i < |ks| ==> ks[i] in m
    ensures InsertAll(t, m, ks).keys == t.keys + NewKeys(t.entries.Keys, ks)
    decreases |ks|
  {
    if ks != [] {
      var k, rest := ks[0], ks[1..];
      var t' := Insert(t, k, m[k]);
      var seen := t.entries.Keys;
      InsertOrder(t, k, m[k]);
      InsertAllOrder(t', m, rest);
      NewKeysStep(seen, ks);
      assert (t.keys + NewKeys(seen, [k])) + NewKeys(seen + {k}, rest)
        == t.keys + (NewKeys(seen, [k]) + NewKeys(seen + {k}, rest));
    }
  }

  /** `t.update(u)` keeps the keys of `t` where they are and appends the keys
      of `u` that `t` lacks, in `u`'s order. */
  lemma UpdateOrder(t: Table, u: Table)
    requires t.Valid() && u.Valid()
    ensures Update(t, u).keys == t.keys + NewKeys(t.entries.Keys, u.keys)
  {
    InsertAllOrder(t, u.entries, u.keys);
  }

  /** Marking a whole prefix seen: the new keys of `a + b` are those of
      `a`, then those of `b` that neither `seen` nor `a` holds. */
  lemma {:induction false} NewKeysAppend(seen: set<string>, a: seq<string>, b: seq<string>)
    ensures NewKeys(seen, a + b) == NewKeys(seen, a) + NewKeys(seen + (set x | x in a), b)
    decreases |a|
  {
    if a == [] {
      assert a + b == b;
      assert seen + (set x | x in a) == seen;
    } else {
      var k := a[0];
      assert (a + b)[0] == k && (a + b)[1..] == a[1..] + b;
      NewKeysStep(seen, a + b);
      NewKeysStep(seen, a);
      NewKeysAppend(seen + {k}, a[1..], b);
      assert seen + {k} + (set x | x in a[1..]) == seen + (set x | x in a);
    }
  }

  /** The hostnames of `lines` are those of its first line, then those of
      the rest. */
  lemma DefinedHostsCons(lines: seq<string>)
    requires lines != []
    ensures DefinedHosts(lines) == DefinedHosts([lines[0]]) + DefinedHosts(lines[1..])
  {
    assert [lines[0]][1..] == [];
  }

  /** One stored line appends the hostname it defines, if that is new. */
  lemma StoreOrder(t: Table, line: string)
    requires Store(t, line).Ok?
    ensures var hs := DefinedHosts([line]);
      && Store(t, line).value.keys == t.keys + NewKeys(t.entries.Keys, hs)
      && Store(t, line).value.entries.Keys == t.entries.Keys + (set h | h in hs)
  {
    assert [line][1..] == [];
    if |Strip(line)| > 0 {
      ParseNamesHost(line);
      var h := Parse(line).value.hostname.value;
      InsertOrder(t, h, Parse(line).value);
      assert DefinedHosts([line]) == [h];
      assert (set x | x in [h]) == {h};
    } else {
      assert DefinedHosts([line]) == [];
      assert (set x: string | x in []) == {};
    }
  }

  /** Building lists the table's old keys first, then every newly defined
      hostname once, in the order the lines first define it. */
  lemma {:induction false} BuildKeyOrder(t: Table, lines: seq<string>)
    requires Build(t, lines).Ok?
    ensures Build(t, lines).value.keys == t.keys + NewKeys(t.entries.Keys, DefinedHosts(lines))
    decreases |lines|
  {
    if lines != [] {
      BuildFrom(t, lines, 0);
      assert lines[0..] == lines;
      var t' := Store(t, lines[0]).value;
      BuildKeyOrder(t', lines[1..]);
      StoreOrder(t, lines[0]);
      DefinedHostsCons(lines);
      KeyOrderCons(t.keys, t.entries.Keys, DefinedHosts([lines[0]]), DefinedHosts(lines[1..]),
        t'.keys, t'.entries.Keys, Build(t, lines).value.keys);
    }
  }

  /** New keys from `hs`, then new keys from `rest` with `hs` seen, are the
      new keys of `hs + rest`. */
  lemma KeyOrderCons(keys: seq<string>, seen: set<string>, hs: seq<string>, rest: seq<string>,
                     keys': seq<string>, seen': set<string>, out: seq<string>)
    requires keys' == keys + NewKeys(seen, hs) && seen' == seen + (set h | h in hs)
    requires out == keys' + NewKeys(seen', rest)
    ensures out == keys + NewKeys(seen, hs + rest)
  {
    NewKeysAppend(seen, hs, rest);
    var first, later := NewKeys(seen, hs), NewKeys(seen', rest);
    assert (keys + first) + later == keys + (first + later);
  }

  /** Keys that are distinct and none of them seen are all new, in their own
      order. */
  lemma {:induction false} NewKeysDistinct(seen: set<string>, ks: seq<string>)
    requires forall i, j :: 0 <= i < j < |ks| ==> ks[i] != ks[j]
    requires forall i :: 0 <= i < |ks| ==> ks[i] !in seen
    ensures NewKeys(seen, ks) == ks
    decreases |ks|
  {
    if ks != [] {
      var rest := ks[1..];
      assert forall i :: 0 <= i < |rest| ==> rest[i] == ks[i + 1];
      NewKeysDistinct(seen + {ks[0]}, rest);
    }
  }

  /** Updating an empty table with a consistent table copies its key
      order. */
  lemma UpdateEmptyOrder(u: Table)
    requires u.Valid()
    ensures Update(Empty, u).keys == u.keys
  {
    UpdateOrder(Empty, u);
    assert Empty.entries.Keys == {};
    NewKeysDistinct({}, u.keys);
  }

  /** A table file loaded into a fresh server by `update` is scanned in the
      order in which its lines first define each hostname. */
  lemma LoadIntoEmptyOrder(lines: seq<string>)
    requires Build(Empty, lines).Ok?
    ensures Build(Empty, lines).value.Valid()
      && Update(Empty, Build(Empty, lines).value).keys == NewKeys({}, DefinedHosts(lines))
  {
    BuildKeepsOrder(Empty, lines);
    UpdateEmptyOrder(Build(Empty, lines).value);
    BuildFromEmptyOrder(lines);
  }

  /** A table built from nothing iterates over the defined hostnames in the
      order of their first definition. */
  lemma BuildFromEmptyOrder(lines: seq<string>)
    requires Build(Empty, lines).Ok?
    ensures Build(Empty, lines).value.keys == NewKeys({}, DefinedHosts(lines))
  {
    BuildKeyOrder(Empty, lines);
    assert Empty.entries.Keys == {};
  }

  /** Building from a non-empty list is one `Store` followed by the rest. */
  lemma BuildCons(t: Table, line: string, rest: seq<string>)
    ensures Store(t, line).Err? ==> Build(t, [line] + rest) == Err(Store(t, line).error)
    ensures Store(t, line).Ok? ==> Build(t, [line] + rest) == Build(Store(t, line).value, rest)
  {
    assert ([line] + rest)[0] == line;
    assert ([line] + rest)[1..] == rest;
  }

  /** Building from position `n` on is storing line `n`, then building from
      position `n + 1` on. */
  lemma BuildFrom(t: Table, lines: seq<string>, n: nat)
    requires n < |lines|
    ensures Store(t, lines[n]).Err? ==> Build(t, lines[n..]) == Err(Store(t, lines[n]).error)
    ensures Store(t, lines[n]).Ok? ==> Build(t, lines[n..]) == Build(Store(t, lines[n]).value, lines[n + 1..])
  {
    assert lines[n..] == [lines[n]] + lines[n + 1..];
    BuildCons(t, lines[n], lines[n + 1..]);
  }

  /** Two lines for the same hostname: the table holds only the second. */
  lemma LaterLineReplaces(first: string, second: string, k: string)
    requires Defines(first, k) && Defines(second, k)
    ensures Build(Empty, [first, second]).Ok?
    ensures Build(Empty, [first, second]).value.keys == [k]
    ensures Build(Empty, [first, second]).value.entries == map[k := Parse(second).value]
  {
    var t1 := Insert(Empty, k, Parse(first).value);
    assert Store(Empty, first) == Ok(t1);
    var t2 := Insert(t1, k, Parse(second).value);
    assert Store(t1, second) == Ok(t2);
    BuildCons(Empty, first, [second]);
    BuildCons(t1, second, []);
    assert [first, second] == [first] + [second];
    assert [second] == [second] + [];
  }
}

=== FILE: text.dfy ===
/** The Python string primitives the resolver relies on: `str.split()` with
    no argument, `str.strip()`, ASCII `str.lower()`, `str.rfind()` and the
    slice `s[i:]` with a possibly negative start. */
module Text {

  /** The characters Python's `str.isspace()` accepts; `split()` and `strip()`
      with no argument separate and trim on exactly these. */
  predicate IsSpace(c: char)
  {
    c == ' ' || c == '\t' || c == '\n' || c == '\r' || c == '\U{b}' || c == '\U{c}'
    || ('\U{1c}' <= c <= '\U{1f}') || c == '\U{85}' || c == '\U{a0}' || c == '\U{1680}'
    || ('\U{2000}' <= c <= '\U{200a}') || c == '\U{2028}' || c == '\U{2029}'
    || c == '\U{202f}' || c == '\U{205f}' || c == '\U{3000}'
  }

  /** A token `split()` can produce: non-empty, no whitespace inside. */
  predicate IsWord(w: string)
  {
    |w| > 0 && forall i :: 0 <= i < |w| ==> !IsSpace(w[i])
  }

  predicate IsBlank(s: string)
  {
    forall i :: 0 <= i < |s| ==> IsSpace(s[i])
  }

  /** Length of the run of non-whitespace characters at the start of `s`. */
  function WordLength(s: string): (n: nat)
    ensures n <= |s|
    ensures forall i :: 0 <= i < n ==> !IsSpace(s[i])
    ensures n < |s| ==> IsSpace(s[n])
  {
    if s == [] || IsSpace(s[0]) then 0 else 1 + WordLength(s[1..])
  }

  /** `s.split()`: the maximal runs of non-whitespace characters, in order. */
  function Split(s: string): (words: seq<string>)
    ensures forall k :: 0 <= k < |words| ==> IsWord(words[k])
    decreases |s|
  {
    if s == [] then []
    else if IsSpace(s[0]) then Split(s[1..])
    else
      var n := WordLength(s);
      [s[..n]] + Split(s[n..])
  }

  /** `s.lstrip()` */
  function StripLeft(s: string): string
  {
    if s != [] && IsSpace(s[0]) then StripLeft(s[1..]) else s
  }

  /** `s.rstrip()` */
  function StripRight(s: string): string
  {
    if s != [] && IsSpace(s[|s| - 1]) then StripRight(s[..|s| - 1]) else s
  }

  /** `s.strip()` */
  function Strip(s: string): string
  {
    StripRight(StripLeft(s))
  }

  /** ASCII `str.lower()`. */
  function LowerChar(c: char): char
  {
    if 'A' <= c <= 'Z' then (c as int + 32) as char else c
  }

  function Lower(s: string): string
  {
    seq(|s|, i requires 0 <= i < |s| => LowerChar(s[i]))
  }

  /** `str.lower()` applied twice is applied once. */
  lemma LowerIdempotent(s: string)
    ensures Lower(Lower(s)) == Lower(s)
  {
    forall i | 0 <= i < |s|
      ensures Lower(Lower(s))[i] == Lower(s)[i]
    {
      var c := s[i];
      if 'A' <= c <= 'Z' {
        assert LowerChar(c) as int == c as int + 32;
      }
    }
  }

  /** `s.rfind(c)`: the last index holding `c`, or -1. */
  function RFind(s: string, c: char): (i: int)
    ensures -1 <= i < |s|
    ensures i >= 0 ==> s[i] == c
    ensures forall j :: i < j < |s| ==> s[j] != c
  {
    if s == [] then -1
    else if s[|s| - 1] == c then |s| - 1
    else RFind(s[..|s| - 1], c)
  }

  /** The Python slice `s[i:]`: a negative `i` counts from the end and is
      clamped at the start; a start past the end gives the empty string. */
  function SliceFrom(s: string, i: int): (r: string)
    ensures |r| <= |s| && r == s[|s| - |r|..]
  {
    if i >= 0 then (if i <= |s| then s[i..] else [])
    else if |s| + i >= 0 then s[|s| + i..]
    else s
  }

  // ---------------------------------------------------------------------
  // Lemmas about splitting and stripping

  /** A word stops at the first whitespace, so appending text that starts
      with whitespace does not lengthen it. */
  lemma {:induction false} WordLengthAppend(a: string, b: string)
    requires b != [] && IsSpace(b[0])
    ensures WordLength(a + b) == WordLength(a)
  {
    if a == [] {
    } else if IsSpace(a[0]) {
    } else {
      assert (a + b)[1..] == a[1..] + b;
      WordLengthAppend(a[1..], b);
    }
  }

  /** Splitting distributes over a concatenation whose right part starts
      with whitespace. */
  lemma {:induction false} SplitAppend(a: string, b: string)
    requires b != [] && IsSpace(b[0])
    ensures Split(a + b) == Split(a) + Split(b)
    decreases |a|
  {
    if a == [] {
      assert a + b == b;
    } else if IsSpace(a[0]) {
      assert (a + b)[1..] == a[1..] + b;
      SplitAppend(a[1..], b);
    } else {
      WordLengthAppend(a, b);
      var n := WordLength(a);
      assert (a + b)[..n] == a[..n];
      assert (a + b)[n..] == a[n..] + b;
      SplitAppend(a[n..], b);
    }
  }

  lemma SplitWord(w: string)
    requires IsWord(w)
    ensures Split(w) == [w]
  {
    WordLengthOfWord(w);
    assert w[..|w|] == w;
    assert w[|w|..] == [];
    assert Split(w) == [w[..|w|]] + Split(w[|w|..]);
  }

  lemma {:induction false} WordLengthOfWord(w: string)
    requires forall i :: 0 <= i < |w| ==> !IsSpace(w[i])
    ensures WordLength(w) == |w|
  {
    if w != [] {
      WordLengthOfWord(w[1..]);
    }
  }

  /** A word preceded by one space splits to that word alone. */
  lemma SplitSpaceWord(w: string)
    requires IsWord(w)
    ensures Split(" " + w) == [w]
  {
    assert (" " + w)[1..] == w;
    SplitWord(w);
  }

  lemma {:induction false} SplitBlank(s: string)
    ensures IsBlank(s) <==> Split(s) == []
    decreases |s|
  {
    if s == [] {
    } else if IsSpace(s[0]) {
      SplitBlank(s[1..]);
      assert IsBlank(s) <==> IsBlank(s[1..]) by {
        if IsBlank(s[1..]) {
          forall i | 0 <= i < |s| ensures IsSpace(s[i]) {
            if i > 0 { assert s[i] == s[1..][i - 1]; }
          }
        }
      }
    } else {
      assert !IsBlank(s);
    }
  }

  /** Leading whitespace does not change the words. */
  lemma {:induction false} SplitSkipsBlankPrefix(p: string, s: string)
    requires IsBlank(p)
    ensures Split(p + s) == Split(s)
    decreases |p|
  {
    if p != [] {
      assert (p + s)[1..] == p[1..] + s;
      SplitSkipsBlankPrefix(p[1..], s);
    } else {
      assert p + s == s;
    }
  }

  /** `lstrip` removes a blank prefix and leaves text that is empty or
      starts with a non-space character. */
  lemma {:induction false} StripLeftTrims(s: string)
    ensures var r := StripLeft(s);
      |r| <= |s| && r == s[|s| - |r|..] && IsBlank(s[..|s| - |r|])
      && (r == [] || !IsSpace(r[0]))
    decreases |s|
  {
    if s != [] && IsSpace(s[0]) {
      var t := s[1..];
      var r := StripLeft(t);
      StripLeftTrims(t);
      assert StripLeft(s) == r;
      var pre := s[..|s| - |r|];
      assert pre == [s[0]] + t[..|t| - |r|];
      forall i | 0 <= i < |pre| ensures IsSpace(pre[i]) {
        if i > 0 {
          assert pre[i] == t[..|t| - |r|][i - 1];
        }
      }
      assert s[|s| - |r|..] == t[|t| - |r|..];
    }
  }

  /** `rstrip` removes a blank suffix and leaves text that is empty or ends
      with a non-space character. */
  lemma {:induction false} StripRightTrims(s: string)
    ensures var r := StripRight(s);
      |r| <= |s| && r == s[..|r|] && IsBlank(s[|r|..])
      && (r == [] || !IsSpace(r[|r| - 1]))
    decreases |s|
  {
    if s != [] && IsSpace(s[|s| - 1]) {
      var t := s[..|s| - 1];
      var r := StripRight(t);
      StripRightTrims(t);
      assert StripRight(s) == r;
      var post := s[|r|..];
      assert post == t[|r|..] + [s[|s| - 1]];
      forall i | 0 <= i < |post| ensures IsSpace(post[i]) {
        if i < |post| - 1 {
          assert post[i] == t[|r|..][i];
        }
      }
      assert s[..|r|] == t[..|r|];
    }
  }

  /** `strip` leaves text that is empty or starts and ends with a non-space
      character. */
  lemma StripTrims(s: string)
    ensures var r := Strip(s);
      r == [] || (!IsSpace(r[0]) && !IsSpace(r[|r| - 1]))
  {
    StripLeftTrims(s);
    StripRightTrims(StripLeft(s));
    var l := StripLeft(s);
    var r := StripRight(l);
    if r != [] {
      assert r[0] == l[0];
    }
  }

  /** `s.strip().split() == s.split()`. */
  lemma SplitStrip(s: string)
    ensures Split(Strip(s)) == Split(s)
  {
    var l := StripLeft(s);
    StripLeftTrims(s);
    var pre := s[..|s| - |l|];
    assert s == pre + l;
    SplitSkipsBlankPrefix(pre, l);
    var r := StripRight(l);
    StripRightTrims(l);
    var post := l[|r|..];
    assert l == r + post;
    if post != [] {
      SplitAppend(r, post);
      SplitBlank(post);
    } else {
      assert l == r;
    }
  }

  /** A line counts as blank for `len(line.strip()) > 0` exactly when it
      splits into no words. */
  lemma StripEmptyIffNoWords(s: string)
    ensures |Strip(s)| == 0 <==> Split(s) == []
  {
    SplitStrip(s);
    SplitBlank(Strip(s));
    StripTrims(s);
    var t := Strip(s);
    if t != [] {
      assert !IsSpace(t[0]);
      assert !IsBlank(t);
    }
  }
}

=== FILE: wrappers.dfy ===
/** Failure-carrying values used throughout the model in place of Python's
    `None` results and raised exceptions. */
module Wrappers {

  datatype Option<+T> = None | Some(value: T)

  datatype Result<+T, +E> = Ok(value: T) | Err(error: E)
}
